=== FILE: README.md ===
# CSV-Manager core, modelled in Dafny

This project models the three core headers of CSV-Manager and proves properties of them:

- **the encoder** (`csv_encoder.hpp`) turns rows of fields into CSV lines;
- **the parser** (`csv_parser.hpp`) turns CSV lines back into rows;
- **the container** (`csv_data.hpp`) is the table of rows with its column map and iterators.

Each source class becomes a Dafny `class` whose methods change its fields the way the C++ code does:

- the encoder's `Encoder`, `Iterator` and `CSVEncoder`;
- the parser's `Iterator`;
- the container's `CSVData`, `BaseIterator` and `ColumnIterator`.

Every method is proved against a specification function. The properties are proved as lemmas about those functions. Examples:

- the escape loop only inserts quotes;
- a field is enclosed exactly when it holds the delimiter, CR, LF or the quote;
- a row is its encoded fields joined with the delimiter;
- a line that ends inside a quote continues on the next line;
- the parser never stores a quote;
- a one-character delimiter splits a line at every occurrence;
- `parse(encode(row)) == row` for non-empty recoverable rows;
- `column_values` returns a copy.

The modules and their files:

| file | module | contents |
|---|---|---|
| `text.dfy` | `Text` | `std::string::find`, `find(substring)` and `find_first_of` over `seq<char>`, plus counting, deleting and joining helpers |
| `encoder.dfy` | `Encoding` | the encoder's specification functions, their lemmas and the three encoder classes |
| `parser.dfy` | `Parsing` | the parser state (`Scan`), the functions `Step`, `ScanLine`, `ParseFrom` and `NextRow`, their lemmas, and the class `Iterator` |
| `table.dfy` | `Table` | `CsvData`, `RowIterator` (the source's `BaseIterator`) and `ColumnIterator` |
| `round_trip.dfy` | `RoundTrip` | the encoder followed by the parser: when the row comes back, and two rows that do not |
| `delimiter_restart.dfy` | `DelimiterRestart` | the parser step with the delimiter match restarted on a mismatch (second finding) and its round trip |
| `encoder_tests.dfy`, `parser_tests.dfy`, `table_tests.dfy` | `EncoderTests`, `ParserTests`, `TableTests` | the repository's tests, stated as lemmas and methods whose postconditions are the expected values |

How the C++ entities are represented:

- Source iterators over a `std::vector` (`IterIterStr`, `AnyIter`) are indexes into a `seq`: `source_iter`, `source_start` and `source_end` become `position` and `|rows|` or `|lines|`.
- A reference that an iterator holds into the table is a (table, row index) pair.
- Strings are `seq<char>`.
- The quote character of the parser is fixed as `"`, as in the source.
- Two lookups are plain definitions with no contract of their own. `Table.IndexOf` is `column_index[name]`: the stored index, or 0 for a missing name (csv_data.hpp:88). `ColumnValues`, `BeginColIter`, `EndColIter` and `Inserted` state their results through it. `Parsing.Expected` is `delimiter[delim_count]`: the terminator when the delimiter is empty (csv_parser.hpp:83). `Step` compares each character with it.

### Where the code departs from its evident intent (the model follows the code)

- **Quotes in parsed text.** The encoder inserts one extra quote for each quote in a field (csv_encoder.hpp:83-88). It is evidently meant to double each quote in place, so that a reader can take a doubled quote back as one literal quote and `parse(encode(row))` gives the row back, and it does so only for a field with at most one quote (`Encoding.EscapedIntendedUpToOneQuote`; see the first finding). The parser instead toggles a flag on every `"` and never stores one (csv_parser.hpp:82). An encoded `a"b` therefore comes back as `ab` (`RoundTrip.QuoteIsLost`, `Parsing.NextRowQuoteFree`). The exact round trip holds only for non-empty rows without quotes whose delimiter the parser cannot mis-match (`RoundTrip.ParseEncodedRow`, `RoundTrip.SingleCharacterRoundTrip`).
- **The empty row.** The empty row encodes to the empty line, and the empty line parses to a row of one empty field, so the empty row does not come back either (`RoundTrip.EmptyRowComesBackAsOneField`).
- **Broken delimiter matches.** Delimiters may be longer than one character (csv_encoder.hpp:160), and a delimiter is evidently meant to be found where it occurs as a whole. The parser instead keeps its position in the delimiter when a character breaks a partial match (csv_parser.hpp:83-93), so the delimiter's characters can be collected from different places in a field. This is the second finding below.
- **Source ending inside a quote.** When every remaining line ends with a quote open, the source runs out inside the quote. The field being read is then dropped, not emitted: the row holds only the fields completed on the way (csv_parser.hpp:96-101, `Parsing.OpenFieldDroppedAtEnd`). The lines `a"b` and `c""d` give the empty row, and `abcd` is lost (`ParserTests.UnclosedQuoteDropsField`).
- **Empty delimiter.** Nothing in the code rejects an empty delimiter. The parser then compares each character with the string terminator, so nothing is ever split (`Parsing.EmptyDelimiterKeepsLine`).
- **Column copies.** The repository's test tests/test_csv_data.cpp:17-24 expects the result of `column_values` to show a later write to the table. The header's own comment (csv_data.hpp:86) and its code (csv_data.hpp:85-91) return a copy, so that expectation does not hold (`TableTests.TestColumnValues`). Only `ColumnIterator` writes through to the rows (`TableTests.TestColumnIterator`).
- **Parser end test.** The parser's `==` and `!=` compare only the `ended` flag. `next` never sets that flag, so comparing with the end iterator never ends a loop (csv_parser.hpp:63-68).
- **End encoder configuration.** The end encoder of `CSVEncoder` is built from the end position alone, so it has the default delimiter and quote (csv_encoder.hpp:159, `Encoding.CsvEncoder.Init`).

## Model

| member | source | states |
|---|---|---|
| Text.FindChar | csv_encoder.hpp:84-87 | `find(c, from)`: the first index at or after `from` holding `c`, no earlier one holds it, and `None` (npos) exactly when no index from `from` on holds it |
| Text.Contains | csv_encoder.hpp:91 | `find(delimiter) != npos` exactly when the delimiter occurs at some index; the empty delimiter occurs in every field |
| Text.HasAnyOf | csv_encoder.hpp:91 | `find_first_of(chars) != npos` exactly when some character of the field is one of `chars` |
| Encoding.NeedsEnclosure | csv_encoder.hpp:74-92 | a field is enclosed exactly when the delimiter occurs in it or it holds CR, LF or the quote |
| Encoding.CheckDelimiter | csv_encoder.hpp:162-163 | the constructor's check reports an error exactly when the quote is one of the delimiter's characters |
| Encoding.EncodedLines | csv_encoder.hpp:167-177 | defined by adding one row's line at a time; proved to yield one line per row, in order, each the encoded row |
| Encoding.EncodedLinesPrefix | csv_encoder.hpp:167-177 | one more row of the range adds its encoded line at the end |
| Encoding.EncodedLinesAppend | csv_encoder.hpp:167-177 | a pass over two ranges one after the other yields the lines of both, in order |
| Encoding.InsertQuotesOnlyInsertsQuotes | csv_encoder.hpp:83-88 | each pass of the escape loop inserts exactly one quote: length and quote count grow by the number of quotes seen, and the text without quotes is unchanged |
| Encoding.InsertOneQuote | csv_encoder.hpp:86 | inserting one quote adds one to the quote count and nothing once quotes are deleted |
| Encoding.EscapedOnlyDoublesQuoteCount | csv_encoder.hpp:81-88 | escaping doubles the number of quotes, adds one character per quote and leaves the quote-free text unchanged |
| Encoding.InsertQuotesNoneLeft | csv_encoder.hpp:85 | with no quote left to find, the loop ends with `output` unchanged |
| Encoding.InsertQuotesSkip | csv_encoder.hpp:87 | `find` skips indexes without a quote, leaving `output` untouched |
| Encoding.EscapedQuoteFree | csv_encoder.hpp:84-85 | a field without quotes is not changed by escaping |
| Encoding.EscapedSingleQuote | csv_encoder.hpp:84-88 | a field with one quote gets that quote doubled in place |
| Encoding.OnlyQuoteAt | csv_encoder.hpp:84-87 | a field whose quote count is one holds a quote nowhere but at that index |
| Encoding.EncodedFieldPlain | csv_encoder.hpp:78-95 | a field that needs no enclosure is returned unchanged |
| Encoding.EncodedFieldEnclosure | csv_encoder.hpp:90-94 | enclosure happens exactly when the field needs it; the result is one quote, the escaped text, one quote, and its length and quote count are given exactly |
| Encoding.EncodedRowIsJoin | csv_encoder.hpp:55-71 | `encode` gives the encoded fields joined with the delimiter, with none before or after and the empty string for an empty row |
| Encoding.EncodedRowCons | csv_encoder.hpp:62-68 | one more field in front adds its encoding and one delimiter in front |
| Encoding.ThreeFieldRow | csv_encoder.hpp:62-68 | a row of three fields is first, delimiter, second, delimiter, third |
| Encoding.PlainField | csv_encoder.hpp:78-95 | a field without quote, CR, LF or the delimiter's first character encodes to itself |
| Encoding.DoubledQuotes | csv_encoder.hpp:83-88 | the intended escaping adds one character per quote |
| Encoding.UndoubledDoubledQuotes | csv_encoder.hpp:83-88 | the intended escaping is undone by turning each doubled quote back into one quote |
| Encoding.DoubledQuotesAppend | csv_encoder.hpp:83-88 | the intended escaping works piece by piece |
| Encoding.DoubledQuotesQuoteFree | csv_encoder.hpp:83-88 | the intended escaping leaves quote-free text alone |
| Encoding.DoubledQuotesSingle | csv_encoder.hpp:83-88 | the intended escaping doubles a lone quote in place |
| Encoding.EscapedIntendedUpToOneQuote | csv_encoder.hpp:83-88 | with at most one quote, the escape loop as written agrees with the intended escaping |
| Encoding.EscapedDriftExample | csv_encoder.hpp:84-88 | as written, `a"b"c` escapes to `a"""b"c`, not the intended `a""b""c` |
| Encoding.DecodedEncodedFieldIntended | csv_encoder.hpp:78-95 | with the intended escaping, stripping the enclosure and undoubling the quotes gives every field back |
| Encoding.Encoder.constructor | csv_encoder.hpp:41-42 | stores the rows, the start position, the delimiter and the quote |
| Encoding.Encoder.Reset | csv_encoder.hpp:44-48 | moves the cursor to the given start and changes nothing else |
| Encoding.Encoder.Next | csv_encoder.hpp:50-53 | advances the cursor by exactly one row and changes nothing else |
| Encoding.Encoder.Encode | csv_encoder.hpp:55-71 | the line becomes the encoded row under the cursor; the cursor does not move |
| Encoding.Encoder.EncodeField | csv_encoder.hpp:78-95 | the escape loop driven by `find` computes the escaped field, enclosed when needed |
| Encoding.Iterator.constructor | csv_encoder.hpp:105-107 | wraps the encoder with the cache marked stale |
| Encoding.Iterator.Copy | csv_encoder.hpp:122-123 | the copy shares the encoder and holds the same line, with the cache marked current |
| Encoding.Iterator.Increment | csv_encoder.hpp:109-114 | advances the encoder by one row and marks the cache stale |
| Encoding.Iterator.PostIncrement | csv_encoder.hpp:116-127 | returns a fresh copy sharing the encoder, holding the row's freshly encoded line when the cache was stale and the cached line otherwise, and leaves that line in the iterator (and in the encoder when it encoded); then advances the shared cursor by one and marks the cache stale; from an iterator whose cache was in step, the copy holds the line of the row before the advance |
| Encoding.Iterator.Deref | csv_encoder.hpp:129-136 | returns the encoded row under the cursor when the cache was stale, else the cached line; the cache is then current, and the shared encoder's line is the returned line when it was re-encoded and is unchanged otherwise |
| Encoding.Iterator.Equals | csv_encoder.hpp:138-140 | true exactly when the two encoders' cursors are at the same row |
| Encoding.Iterator.NotEquals | csv_encoder.hpp:141-143 | true exactly when the two encoders' cursors differ |
| Encoding.CsvEncoder.Init | csv_encoder.hpp:158-159 | a working encoder at the first row and an end encoder at the end of the range with the default configuration |
| Encoding.CsvEncoder.Create | csv_encoder.hpp:158-164 | fails with `QuoteInDelimiter` exactly when the quote is in the delimiter, otherwise builds an encoder with the given configuration |
| Encoding.CsvEncoder.Begin | csv_encoder.hpp:167-171 | resets the working encoder to the first row and returns a fresh iterator over it, with an empty cached line marked stale |
| Encoding.CsvEncoder.End | csv_encoder.hpp:174-177 | returns a fresh iterator over the encoder parked at the end of the range, with an empty cached line marked stale |
| Encoding.CsvEncoder.Lines | tests/test_csv_encoder.cpp:30-38 | a full `for` pass from `begin()` to `end()` yields the encoded line of every row, in order, whatever state the encoder was left in |
| EncoderTests.EncodedRowTestSimpleFirst | tests/test_csv_encoder.cpp:55-56 | the first row of `test_simple_1` encodes to the expected first line |
| EncoderTests.EncodedRowTestSimpleSecond | tests/test_csv_encoder.cpp:55-56 | the second row of `test_simple_1` encodes to the expected second line |
| EncoderTests.FieldHoldingDelimiter | tests/test_csv_encoder.cpp:55-56 | a field holding the whole delimiter is enclosed |
| EncoderTests.FieldWithLeadingQuote | tests/test_csv_encoder.cpp:55-56 | a leading quote is doubled and the field enclosed |
| EncoderTests.FieldHoldingNewline | tests/test_csv_encoder.cpp:55-56 | a field holding LF is enclosed |
| EncoderTests.FieldHoldingCarriageReturn | tests/test_csv_encoder.cpp:55-56 | a field holding CR is enclosed |
| EncoderTests.TestSimple | tests/test_csv_encoder.cpp:52-61 | the full pass over the test's rows with `<\|>` yields exactly the expected lines |
| EncoderTests.IterPostfixTest | tests/test_csv_encoder.cpp:64-77 | after `begin++`, the iterator yields `Second` and the copy yields `First` |
| EncoderTests.IterCopyIncrementTest | csv_encoder.hpp:117-127 | advancing the copy that `begin++` returned: its own copy keeps `First`, and the copy and `begin` both yield the third row, since they share one encoder |
| EncoderTests.CopyLines | csv_encoder.hpp:117-127 | the rows of that test encode to themselves |
| EncoderTests.SimpleLines | tests/test_csv_encoder.cpp:55-56 | the rows of `test_simple_1` encode to the two expected lines |
| EncoderTests.PostfixLines | tests/test_csv_encoder.cpp:66 | the rows `First` and `Second` encode to themselves |
| Parsing.Step | csv_parser.hpp:82-94 | one character keeps the delimiter position in range, toggles the quote state exactly on `"`, pushes at most one field and never a quote |
| Parsing.ScanLine | csv_parser.hpp:81-95 | one line keeps the delimiter position in range, keeps the fields already pushed and stores no quote |
| Parsing.ScanLineQuoteParity | csv_parser.hpp:81-82 | one line toggles the quote state by the parity of its quotes |
| Parsing.ParseFrom | csv_parser.hpp:80-101 | the outer loop consumes at least one line while any remain, never runs past the end and keeps the fields already pushed |
| Parsing.NextRow | csv_parser.hpp:73-104 | `next` at the end of the source gives an empty row; otherwise it consumes at least one line |
| Parsing.ScanLineAppend | csv_parser.hpp:80-95 | scanning two pieces one after the other is scanning their concatenation |
| Parsing.ScanLineCons | csv_parser.hpp:81 | scanning a character and then the rest is scanning both |
| Parsing.MismatchIsStored | csv_parser.hpp:94 | outside a quote, a character that is neither `"` nor the expected delimiter character is buffered and the match position is kept |
| Parsing.MatchAdvances | csv_parser.hpp:83-85 | outside a quote, the expected delimiter character short of the last is buffered and advances the match position |
| Parsing.MatchCompletes | csv_parser.hpp:83-92 | outside a quote, the last delimiter character pushes the buffer minus the delimiter's length and restarts the match |
| Parsing.CommentedTextIsContent | csv_parser.hpp:82-94 | inside a quote, quote-free text is buffered as it is and the delimiter has no effect |
| Parsing.PlainTextIsContent | csv_parser.hpp:83-94 | outside a quote, text holding neither the quote nor the expected delimiter character is buffered as it is |
| Parsing.DelimiterEndsField | csv_parser.hpp:83-92 | a delimiter read from a field start pushes the buffer and empties it |
| Parsing.FieldThenDelimiter | csv_parser.hpp:83-94 | plain text followed by the delimiter is one pushed field |
| Parsing.MatchDelimiterFrom | csv_parser.hpp:83-92 | completing the delimiter pushes the buffer minus the matched delimiter characters |
| Parsing.MatchedSuffixGrows | csv_parser.hpp:84-85 | buffering the next delimiter character extends the matched suffix by one and leaves what precedes it alone |
| Parsing.SplitOn | csv_parser.hpp:83-92 | cutting at a separator gives one more piece than there are separators, none holding it |
| Parsing.JoinSplitOn | csv_parser.hpp:83-92 | joining the pieces with the separator gives the line back |
| Parsing.Pieces | csv_parser.hpp:83-94 | the pieces with the buffer in front number one more than the separators |
| Parsing.PiecesAtSep | csv_parser.hpp:85-91 | a leading separator closes the buffered piece |
| Parsing.PiecesOther | csv_parser.hpp:94 | any other leading character joins the buffered piece |
| Parsing.ScanLineSplits | csv_parser.hpp:81-95 | with a one-character delimiter, a quote-free line pushes all its pieces but the last, which stays buffered |
| Parsing.NextRowSplitsLine | csv_parser.hpp:73-104 | with a one-character delimiter, a quote-free line is one row: the line cut at every delimiter, empty fields kept |
| Parsing.EmptyDelimiterKeepsLine | csv_parser.hpp:83 | with the empty delimiter, a quote-free line is one row of one field, the line itself |
| Parsing.JoinsOpenLine | csv_parser.hpp:80-101 | a line ending inside a quote continues into the next line exactly as if the two were one line |
| Parsing.ShiftedParse | csv_parser.hpp:80-101 | the outer loop over the same lines from one line later gives the same row |
| Parsing.ScanFrom | csv_parser.hpp:80-95 | scanning every remaining line in turn only appends fields to the row |
| Parsing.OpenFieldDroppedAtEnd | csv_parser.hpp:96-101 | when every remaining line ends with a quote open, every line is consumed and the row is the fields completed while scanning them; the open field is not pushed |
| Parsing.QuoteFreeTailDropped | csv_parser.hpp:96-101 | with a quote open and no quote in the remaining lines, every line is consumed and the row is the one held when the quote opened |
| Parsing.NextRowQuoteFree | csv_parser.hpp:82 | no field that `next` returns holds a quote |
| Parsing.ParseFromQuoteFree | csv_parser.hpp:80-101 | the outer loop never stores a quote in a field |
| Parsing.Iterator.constructor | csv_parser.hpp:38-40 | at the first line, with an empty row, not ended |
| Parsing.Iterator.End | csv_parser.hpp:41-43 | an iterator over nothing with the given `ended` flag |
| Parsing.Iterator.Copy | csv_parser.hpp:53 | the copy has the same source position, row, delimiter and flag |
| Parsing.Iterator.Next | csv_parser.hpp:73-104 | the new row and cursor are exactly `NextRow` from the old cursor |
| Parsing.Iterator.ScanInto | csv_parser.hpp:81-95 | the character loop leaves the state `ScanLine` computes |
| Parsing.Iterator.StepInto | csv_parser.hpp:82-94 | the loop body leaves the state `Step` computes |
| Parsing.Iterator.Increment | csv_parser.hpp:45-49 | prefix `++` parses the next row as `NextRow` does |
| Parsing.Iterator.PostIncrement | csv_parser.hpp:51-56 | returns a fresh copy of the state before the advance, then parses the next row |
| Parsing.Iterator.Deref | csv_parser.hpp:58-61 | returns the current row |
| Parsing.Iterator.Equals | csv_parser.hpp:63-65 | true exactly when the `ended` flags agree |
| Parsing.Iterator.NotEquals | csv_parser.hpp:66-68 | true exactly when the `ended` flags differ |
| ParserTests.QuoteToggles | csv_parser.hpp:82 | a quote only toggles the quote state |
| ParserTests.OpenQuoteJoinsLines | csv_parser.hpp:80-101 | `x<d>y"` then `t"` gives the row `x`, `yt`, consuming two lines |
| ParserTests.QuotedRunInField | csv_parser.hpp:82-94 | three quotes and a later quote around text holding the delimiter give one field with the quotes removed |
| ParserTests.QuotedRunTail | csv_parser.hpp:82-94 | the last field of that line, scanned on its own |
| ParserTests.ScatteredDelimiter | csv_parser.hpp:83-93 | in `a<b\|>c` with `<\|>` the scattered `<`, `\|`, `>` complete the delimiter and push `a<` |
| ParserTests.ScatteredScan | csv_parser.hpp:81-95 | the character loop over `a<b\|>c` |
| ParserTests.ScatteredChars | csv_parser.hpp:81-95 | for any three-character delimiter, `x d0 y d1 d2 z` with mismatching `x`, `y` pushes `x d0` and buffers `z` |
| ParserTests.ScatteredHead | csv_parser.hpp:83-94 | the mismatch between the first two delimiter characters keeps the match position |
| ParserTests.ScatteredTail | csv_parser.hpp:83-94 | the third delimiter character completes the match and the field pushed is the buffer minus three characters |
| ParserTests.UnfinishedDelimiter | csv_parser.hpp:83-96 | an unfinished delimiter stays content: `a<\|b` is one field |
| ParserTests.UnfinishedChars | csv_parser.hpp:83-94 | for any three-character delimiter, two delimiter characters followed by a mismatch stay buffered with the match position kept |
| ParserTests.OpenQuoteAtEndDropsField | csv_parser.hpp:80-101 | the lines `x"y` then `z""w` consume both lines and give the empty row: the source ends inside the quote |
| ParserTests.OpensQuote | csv_parser.hpp:82-94 | the line `x"y` leaves `xy` buffered with a quote open |
| ParserTests.ReopensQuote | csv_parser.hpp:82-94 | inside a quote, the line `z""w` is buffered without its quotes and the quote stays open |
| ParserTests.QuotePairSkipped | csv_parser.hpp:82 | two quotes in a row leave the scan state as it was |
| ParserTests.UnclosedQuoteDropsField | csv_parser.hpp:96-101 | the lines `a"b` and `c""d` give the empty row after consuming both lines |
| ParserTests.FirstRowOfTest | tests/test_csv_parser.cpp:26 | the test's first two lines give `first`, `linesecond<\|>line` |
| ParserTests.SecondRowOfTest | tests/test_csv_parser.cpp:26 | the test's third line gives `third`, `line`, `some<\|>text` |
| ParserTests.SecondLineShape | tests/test_csv_parser.cpp:26 | the third line of the test, cut into its delimiters, quotes and plain pieces |
| ParserTests.TestParse | tests/test_csv_parser.cpp:24-38 | three postfix increments with dereferences yield the empty row, then the two rows above |
| Table.Inserted | csv_data.hpp:88 | after the lookup the name is present and every other entry is unchanged |
| Table.Column | csv_data.hpp:85-91 | the column has one cell per row, the cell at the index in that row |
| Table.ColumnAfterWrite | csv_data.hpp:57-62 | writing one cell changes only that row of its own column and leaves every other column as it was |
| Table.CsvData.constructor | csv_data.hpp:73 | stores the column map and the rows as given |
| Table.CsvData.ColumnValues | csv_data.hpp:85-91 | returns the named column's cell of every row in order, and inserts the name into the map if absent |
| Table.CsvData.BeginColIter | csv_data.hpp:75-78 | a fresh column iterator at the first row, for the looked-up column |
| Table.CsvData.EndColIter | csv_data.hpp:80-83 | a fresh column iterator one past the last row, for the looked-up column |
| Table.RowIterator.constructor | csv_data.hpp:37 | at the given row of the given table |
| Table.RowIterator.Get | csv_data.hpp:40 | the row at the position |
| Table.RowIterator.Set | csv_data.hpp:40 | writing through the reference replaces that one row |
| Table.RowIterator.Increment | csv_data.hpp:42 | the next row |
| Table.RowIterator.PostIncrement | csv_data.hpp:43 | advances and returns this same iterator, not a copy of its earlier state |
| Table.RowIterator.Equals | csv_data.hpp:44 | true exactly when the positions agree |
| Table.RowIterator.NotEquals | csv_data.hpp:45 | true exactly when the positions differ |
| Table.ColumnIterator.constructor | csv_data.hpp:58 | a fresh row position in the given table plus the column index |
| Table.ColumnIterator.Get | csv_data.hpp:61 | the cell of this column in the current row |
| Table.ColumnIterator.Set | csv_data.hpp:61 | writing through the reference changes that one cell; every other row is unchanged |
| Table.ColumnIterator.Increment | csv_data.hpp:42 | the next row, same column |
| Table.ColumnIterator.PostIncrement | csv_data.hpp:43 | advances and returns the inherited base iterator itself |
| Table.ColumnIterator.Equals | csv_data.hpp:44 | true exactly when the row positions agree; the columns are not compared |
| Table.ColumnIterator.NotEquals | csv_data.hpp:45 | true exactly when the row positions differ |
| TableTests.TestInit | tests/test_csv_data.cpp:11-14 | the constructed table holds `text` at the first cell and `message` at index 0 |
| TableTests.TestColumnValues | tests/test_csv_data.cpp:17-24 | the copied column is `text2, text4`, not the `new text, text4` the test expects, while the row itself does change |
| TableTests.TestColumnIterator | csv_data.hpp:39-62 | a write through a column iterator reaches the rows, a column copied before keeps its value, iterators at different rows differ, and iterators on different columns at the same row are equal |
| RoundTrip.ScanEncodedField | csv_parser.hpp:81-95 | an encoded recoverable field, scanned from a field start, buffers the field |
| RoundTrip.ScanEncodedFieldThenDelimiter | csv_parser.hpp:83-92 | an encoded recoverable field followed by the delimiter pushes the field |
| RoundTrip.ScanEncodedRow | csv_parser.hpp:81-95 | an encoded row pushes all its fields but the last, which stays buffered |
| RoundTrip.ParseEncodedRow | csv_parser.hpp:73-104 | `next` over an encoded row of recoverable fields gives the row back and consumes one line |
| RoundTrip.SingleCharacterRecoverable | csv_encoder.hpp:91 | with a one-character delimiter every quote-free field is recoverable |
| RoundTrip.SingleCharacterRoundTrip | csv_parser.hpp:73-104 | with a one-character delimiter, every non-empty quote-free row survives encode then parse |
| RoundTrip.QuoteIsLost | csv_parser.hpp:82 | `a"b` encodes to `"a""b"` and parses back as `ab` |
| RoundTrip.EncodeQuotedField | csv_encoder.hpp:78-95 | `a"b` encodes to `"a""b"` |
| RoundTrip.ParseQuotedLine | csv_parser.hpp:82 | `"a""b"` parses to the one field `ab` |
| RoundTrip.ScatteredFieldSplits | csv_parser.hpp:83-93 | the field `<x\|y>` needs no enclosure under `<\|>`, yet its encoded row `<x\|y><\|>z` parses into three fields |
| RoundTrip.EncodeScatteredRow | csv_encoder.hpp:91 | `<x\|y>` holds no `<\|>`, so the row is encoded unenclosed |
| RoundTrip.EmptyRowComesBackAsOneField | csv_encoder.hpp:55-70 | the empty row encodes to the empty line, and `next` parses that line to a row of one empty field |
| RoundTrip.ParseScatteredLine | csv_parser.hpp:83-93 | `<x\|y><\|>z` parses to `<x`, ``, `z` |
| RoundTrip.ScanScatteredField | csv_parser.hpp:83-93 | scanning `<x\|y>` alone already pushes `<x` |
| RoundTrip.ScatteredFieldChars | csv_parser.hpp:83-94 | for any three-character delimiter, a field `d0 x d1 y d2` with mismatching `x`, `y` pushes `d0 x` and empties the buffer |
| RoundTrip.ScatteredFieldHead | csv_parser.hpp:83-94 | the first delimiter character, a mismatch and the second leave the match at the third |
| RoundTrip.ScatteredFieldTail | csv_parser.hpp:83-94 | a mismatch and then the third delimiter character complete the match |
| DelimiterRestart.RestartStep | csv_parser.hpp:82-94 | a broken match restarts, the breaking character looked at again; every other case is the source's step |
| DelimiterRestart.RestartScanLine | csv_parser.hpp:81-95 | the character loop with the restarting step keeps the delimiter position in range |
| DelimiterRestart.RestartScanLineCons | csv_parser.hpp:81 | scanning a character and then the rest is scanning both |
| DelimiterRestart.RestartScanLineAppend | csv_parser.hpp:81-95 | scanning two pieces one after the other is scanning their concatenation |
| DelimiterRestart.RestartAgreesInComment | csv_parser.hpp:82-94 | inside a quote the restarting step and the source's step agree |
| DelimiterRestart.RestartAgreesOnDelimiter | csv_parser.hpp:83-92 | completing a delimiter already begun, the two steps agree |
| DelimiterRestart.CompletionIsOccurrence | csv_parser.hpp:85 | with restarting, a completed match is an occurrence of the delimiter in what was read |
| DelimiterRestart.RestartPlainText | csv_parser.hpp:83-94 | text holding no occurrence of the delimiter is all content under restarting |
| DelimiterRestart.RestartDelimiterEndsField | csv_parser.hpp:83-92 | under restarting, the delimiter pushes the buffer from any matched state |
| DelimiterRestart.RestartEncodedField | csv_parser.hpp:81-95 | under restarting, every encoded quote-free field is buffered as it is |
| DelimiterRestart.RestartEncodedRow | csv_parser.hpp:81-95 | under restarting, an encoded row pushes all its fields but the last |
| DelimiterRestart.RestartRoundTrip | csv_parser.hpp:83-93 | with restarting, every non-empty quote-free row comes back from its encoded line, for every delimiter without the quote whose first character does not recur |
| DelimiterRestart.RestartScatteredField | csv_parser.hpp:83-93 | with restarting, `<x\|y><\|>z` gives back `<x\|y>`, `z` |

## Left out

- `csv_reader.hpp` and `csv_writer.hpp` read and write files through streams, which is I/O. They also call `CSVData` members that `csv_data.hpp` does not define. `tests/test_csv_reader.cpp`, `tests/test_csv_writer.cpp` and `tests/test_csv_read.cpp` exercise them and are not part of this model.
- The template parameters `IterIterStr` and `AnyIter` are modelled as positions in a `seq` of rows or lines. Other input iterators (streams, single-pass iterators) are not modelled.
- `operator->` of `BaseIterator` and `ColumnIterator` returns the same reference as `operator*`, so it is not modelled separately.
- C++ references are modelled by positions. `Table.RowIterator.Get` returns a copy of the row, and writing through a reference is the separate `Set`. An iterator left dangling after the rows are resized is not modelled, because `csv_data.hpp` has no operation that resizes them.
- Undefined behaviour is excluded by preconditions rather than modelled:
  - dereferencing or advancing past the end (`Encoding.Encoder.Encode`, `Table.RowIterator.Increment`, `Table.RowIterator.Get`);
  - reading a cell beyond a short row (`Table.CsvData.ColumnValues` requires every row to hold the column).
- Parsing.Iterator.Next: with the empty delimiter, a `\0` outside a quote matches the terminator and moves the match position past the string. Only a further comparison after that match is undefined: a `\0` that is the last character of a line is well defined, since the line ends, the buffer is pushed and the next call starts the match again. The model still requires the lines to hold no `\0` at all when the delimiter is empty (`Parsing.LinesNulFree`), so it leaves out that defined trailing case and a `\0` inside a quote, which the source also handles.
- The quote character of the parser is fixed at `"` as in the source. The parser takes no quote parameter.
- Default arguments (`","` and `'"'`) are not modelled; callers pass the configuration explicitly. The exception is `Encoding.CsvEncoder.Init`, whose end encoder uses the defaults because the source builds it that way.
- The C++ exception of the `CSVEncoder` constructor is the `Failure` result of `Encoding.CsvEncoder.Create`.
- ParserTests.TestParse: the test's `for` loop of three iterations is unrolled into three postfix increments. Its printing is not modelled.
- The intended escaping and the restarting parser step are separate definitions next to the code as written. The classes keep the behaviour the source has.

## Findings

| source | as written | input that shows it | evidently intended | confidence | as-written member | corrected member |
|---|---|---|---|---|---|---|
| csv_encoder.hpp:84-88 | Each quote is inserted into `output` at its index in the original field. After the first insertion those indexes no longer line up, so later quotes are doubled one character too early. | the field `a"b"c` escapes to `a"""b"c` | `a""b""c`, every quote doubled in place, which decodes back to the field | not executed | Encoding.EscapedDriftExample | Encoding.DecodedEncodedFieldIntended |
| csv_parser.hpp:83-93 | A character that breaks a partial delimiter match is buffered, but the match position is kept. The rest of the delimiter can then be completed by characters scattered through the field. | the row `<x\|y>`, `z` with delimiter `<\|>` encodes unenclosed to `<x\|y><\|>z`, which parses to `<x`, ``, `z` | a broken match restarts, the breaking character is examined again, and the row comes back | not executed | RoundTrip.ScatteredFieldSplits | DelimiterRestart.RestartRoundTrip |

=== FILE: delimiter_restart.dfy ===
/**
 The delimiter matching the parser evidently intends: when a partial match
 breaks outside a comment, the buffered characters stay content and the
 breaking character is looked at again as a possible start of the
 delimiter. The parser as written keeps its position in the delimiter
 instead (`Parsing.Step`). Everything else is the same step.

 With this step, every non-empty quote-free row comes back from its
 encoded line, for every delimiter that holds no quote and whose first
 character does not occur again later in it.
 */
module DelimiterRestart {
  import opened Text
  import opened Encoding
  import opened Parsing
  import RoundTrip

  /**
   One character: a broken match restarts; every other case is `Step`.
   Only a mismatch restarts: a quote inside a partial match toggles the
   quote state and keeps the match position, as `Step` does, so with `<|>`
   the text `<""|>` still completes the delimiter. The round trip below is
   stated for quote-free rows, which never meet this case.
   */
  function RestartStep(s: Scan, c: char, delimiter: String): (t: Scan)
    requires |delimiter| > 0 && Bounded(s, delimiter)
    ensures Bounded(t, delimiter)
    ensures t.comment == (if c == Quote then !s.comment else s.comment)
    ensures c != Quote && !s.comment && c != delimiter[s.delimCount] ==>
              t == s.(buffer := s.buffer + [c], delimCount := if c == delimiter[0] then 1 else 0)
    ensures c == Quote || s.comment || c == delimiter[s.delimCount] ==> t == Step(s, c, delimiter)
  {
    if c != Quote && !s.comment && c != delimiter[s.delimCount] then
      s.(buffer := s.buffer + [c], delimCount := if c == delimiter[0] then 1 else 0)
    else Step(s, c, delimiter)
  }

  /** The character loop with `RestartStep`. */
  function RestartScanLine(s: Scan, line: String, delimiter: String): (t: Scan)
    requires |delimiter| > 0 && Bounded(s, delimiter)
    ensures Bounded(t, delimiter)
    decreases |line|
  {
    if line == [] then s
    else RestartScanLine(RestartStep(s, line[0], delimiter), line[1..], delimiter)
  }

  /** The buffer ends with the part of the delimiter matched so far. */
  predicate Matched(s: Scan, delimiter: String)
  {
    s.delimCount <= |s.buffer| && s.delimCount <= |delimiter| &&
    s.buffer[|s.buffer| - s.delimCount..] == delimiter[..s.delimCount]
  }

  /** The delimiter's first character does not occur again in it. */
  predicate FirstUnrepeated(delimiter: String)
  {
    |delimiter| > 0 && delimiter[0] !in delimiter[1..]
  }

  lemma RestartScanLineCons(s: Scan, c: char, rest: String, delimiter: String)
    requires |delimiter| > 0 && Bounded(s, delimiter)
    ensures RestartScanLine(s, [c] + rest, delimiter)
            == RestartScanLine(RestartStep(s, c, delimiter), rest, delimiter)
  {
    assert ([c] + rest)[0] == c && ([c] + rest)[1..] == rest;
  }

  lemma {:induction false} RestartScanLineAppend(s: Scan, a: String, b: String, delimiter: String)
    requires |delimiter| > 0 && Bounded(s, delimiter)
    ensures RestartScanLine(s, a + b, delimiter)
            == RestartScanLine(RestartScanLine(s, a, delimiter), b, delimiter)
    decreases |a|
  {
    if a == [] {
      assert a + b == b;
    } else {
      assert (a + b)[0] == a[0];
      assert (a + b)[1..] == a[1..] + b;
      RestartScanLineAppend(RestartStep(s, a[0], delimiter), a[1..], b, delimiter);
    }
  }

  /** Inside a comment the two steps agree: quote-free text is content for both. */
  lemma {:induction false} RestartAgreesInComment(s: Scan, text: String, delimiter: String)
    requires |delimiter| > 0 && Bounded(s, delimiter) && s.comment && Quote !in text
    ensures RestartScanLine(s, text, delimiter) == ScanLine(s, text, delimiter)
    decreases |text|
  {
    if text != [] {
      RestartAgreesInComment(Step(s, text[0], delimiter), text[1..], delimiter);
    }
  }

  /** Completing a delimiter already begun: the two steps agree, since no character breaks the match. */
  lemma {:induction false} RestartAgreesOnDelimiter(s: Scan, delimiter: String, k: nat)
    requires k < |delimiter| && Quote !in delimiter
    requires Bounded(s, delimiter) && !s.comment && s.delimCount == k
    ensures RestartScanLine(s, delimiter[k..], delimiter) == ScanLine(s, delimiter[k..], delimiter)
    decreases |delimiter| - k
  {
    var t := Step(s, delimiter[k], delimiter);
    assert delimiter[k..][0] == delimiter[k] && delimiter[k..][1..] == delimiter[k + 1..];
    if k + 1 < |delimiter| {
      RestartAgreesOnDelimiter(t, delimiter, k + 1);
    } else {
      assert delimiter[k + 1..] == [];
    }
  }

  /** A completed delimiter is an occurrence in what has been read. */
  lemma CompletionIsOccurrence(s: Scan, c: char, text: String, delimiter: String)
    requires |delimiter| > 0 && Bounded(s, delimiter) && Matched(s, delimiter)
    ensures c == delimiter[s.delimCount] && s.delimCount + 1 == |delimiter| ==>
              OccursAt(s.buffer + [c] + text, delimiter, |s.buffer| + 1 - |delimiter|)
  {
    if c == delimiter[s.delimCount] && s.delimCount + 1 == |delimiter| {
      var b := s.buffer + [c];
      var i := |s.buffer| + 1 - |delimiter|;
      assert b[i..] == s.buffer[i..] + [c];
      assert delimiter == delimiter[..s.delimCount] + [c];
      assert (b + text)[i..i + |delimiter|] == b[i..];
    }
  }

  /**
   Outside a comment, quote-free text that together with the buffer holds no
   occurrence of the delimiter is all content, and the buffer keeps ending
   with the part of the delimiter matched so far.
   */
  lemma {:induction false} RestartPlainText(s: Scan, text: String, delimiter: String)
    requires |delimiter| > 0 && Bounded(s, delimiter) && Matched(s, delimiter) && !s.comment
    requires Quote !in text
    requires forall i :: !OccursAt(s.buffer + text, delimiter, i)
    ensures var t := RestartScanLine(s, text, delimiter);
            t.buffer == s.buffer + text && !t.comment && t.row == s.row && Matched(t, delimiter)
    decreases |text|
  {
    if text == [] {
      assert s.buffer + text == s.buffer;
    } else {
      var c := text[0];
      var k := s.delimCount;
      assert s.buffer + text == s.buffer + [c] + text[1..];
      CompletionIsOccurrence(s, c, text[1..], delimiter);
      var t := RestartStep(s, c, delimiter);
      var b := s.buffer + [c];
      assert t.buffer == b && t.row == s.row && !t.comment;
      if c == delimiter[k] {
        assert t.delimCount == k + 1;
        assert b[|b| - (k + 1)..] == s.buffer[|s.buffer| - k..] + [c];
        assert delimiter[..k + 1] == delimiter[..k] + [c];
      } else if c == delimiter[0] {
        assert b[|b| - 1..] == [c] == delimiter[..1];
      } else {
        assert b[|b| - 0..] == [] == delimiter[..0];
      }
      RestartPlainText(t, text[1..], delimiter);
    }
  }

  /**
   After plain content, the delimiter ends the field and pushes exactly that
   content, whatever part of the delimiter the content itself ended with.
   */
  lemma RestartDelimiterEndsField(s: Scan, delimiter: String)
    requires FirstUnrepeated(delimiter) && Quote !in delimiter
    requires Bounded(s, delimiter) && Matched(s, delimiter) && !s.comment
    ensures RestartScanLine(s, delimiter, delimiter) == Scan([], false, 0, s.row + [s.buffer])
  {
    var k := s.delimCount;
    var c := delimiter[0];
    var b := s.buffer + [c];
    assert delimiter == [c] + delimiter[1..];
    RestartScanLineCons(s, c, delimiter[1..], delimiter);
    if k > 0 {
      assert delimiter[k] in delimiter[1..] by {
        assert delimiter[1..][k - 1] == delimiter[k];
      }
    }
    if |delimiter| == 1 {
      assert RestartStep(s, c, delimiter) == Scan([], false, 0, s.row + [b[..|b| - 1]]);
      assert b[..|b| - 1] == s.buffer;
      assert delimiter[1..] == [];
    } else {
      var t := s.(buffer := b, delimCount := 1);
      assert RestartStep(s, c, delimiter) == t;
      RestartAgreesOnDelimiter(t, delimiter, 1);
      assert b[|b| - 1..] == delimiter[..1];
      MatchDelimiterFrom(t, delimiter, 1);
      assert b[..|b| - 1] == s.buffer;
    }
  }

  /** At a field start, one encoded quote-free field becomes the buffer. */
  lemma RestartEncodedField(s: Scan, field: String, delimiter: String)
    requires |delimiter| > 0 && Quote !in delimiter && Quote !in field
    requires s.buffer == [] && !s.comment && s.delimCount == 0
    ensures var t := RestartScanLine(s, EncodedField(field, delimiter, Quote), delimiter);
            t.buffer == field && !t.comment && t.row == s.row && Matched(t, delimiter)
  {
    EscapedQuoteFree(field, Quote);
    if NeedsEnclosure(field, delimiter, Quote) {
      var open := s.(comment := true);
      var filled := open.(buffer := field);
      assert RestartScanLine(s, [Quote] + field + [Quote], delimiter)
          == RestartScanLine(open, field + [Quote], delimiter) by {
        RestartScanLineCons(s, Quote, field + [Quote], delimiter);
        assert [Quote] + field + [Quote] == [Quote] + (field + [Quote]);
      }
      assert RestartScanLine(open, field + [Quote], delimiter)
          == RestartScanLine(filled, [Quote], delimiter) by {
        RestartScanLineAppend(open, field, [Quote], delimiter);
        RestartAgreesInComment(open, field, delimiter);
        CommentedTextIsContent(open, field, delimiter);
        assert [] + field == field;
      }
      assert RestartScanLine(filled, [Quote], delimiter) == s.(buffer := field) by {
        RestartScanLineCons(filled, Quote, [], delimiter);
      }
      assert s.(buffer := field).buffer[|field| - 0..] == [] == delimiter[..0];
    } else {
      assert [] + field == field;
      assert [] == delimiter[..0];
      RestartPlainText(s, field, delimiter);
    }
  }

  /**
   At a field start, an encoded row of quote-free fields pushes all but the
   last field and leaves the last one in the buffer.
   */
  lemma {:induction false} RestartEncodedRow(s: Scan, row: Row, delimiter: String)
    requires FirstUnrepeated(delimiter) && Quote !in delimiter && row != []
    requires s.buffer == [] && !s.comment && s.delimCount == 0
    requires forall k :: 0 <= k < |row| ==> Quote !in row[k]
    ensures var t := RestartScanLine(s, EncodedRow(row, delimiter, Quote), delimiter);
            t.buffer == row[|row| - 1] && !t.comment && t.row == s.row + row[..|row| - 1]
    decreases |row|
  {
    var field := row[0];
    RestartEncodedField(s, field, delimiter);
    if |row| == 1 {
      assert EncodedRow(row, delimiter, Quote) == EncodedField(field, delimiter, Quote);
      assert row[..0] == [] && s.row + [] == s.row;
    } else {
      var rest := row[1..];
      assert row == [field] + rest;
      assert rest[|rest| - 1] == row[|row| - 1];
      assert s.row + [field] + rest[..|rest| - 1] == s.row + row[..|row| - 1] by {
        assert [field] + rest[..|rest| - 1] == row[..|row| - 1];
      }
      EncodedRowCons(field, rest, delimiter, Quote);
      var encoded := EncodedField(field, delimiter, Quote);
      var u := RestartScanLine(s, encoded, delimiter);
      var t := Scan([], false, 0, s.row + [field]);
      RestartDelimiterEndsField(u, delimiter);
      RestartScanLineAppend(s, encoded, delimiter, delimiter);
      RestartScanLineAppend(s, encoded + delimiter, EncodedRow(rest, delimiter, Quote), delimiter);
      RestartEncodedRow(t, rest, delimiter);
    }
  }

  /**
   The intended round trip: with the restarting step, the encoded line of
   any non-empty quote-free row is read back as that row.
   */
  lemma RestartRoundTrip(row: Row, delimiter: String)
    requires FirstUnrepeated(delimiter) && Quote !in delimiter && row != []
    requires forall k :: 0 <= k < |row| ==> Quote !in row[k]
    ensures var t := RestartScanLine(Start, EncodedRow(row, delimiter, Quote), delimiter);
            !t.comment && t.row + [t.buffer] == row
  {
    var init, last := row[..|row| - 1], row[|row| - 1];
    var t := RestartScanLine(Start, EncodedRow(row, delimiter, Quote), delimiter);
    assert t.row == init && t.buffer == last && !t.comment by {
      RestartEncodedRow(Start, row, delimiter);
      assert Start.row + init == init;
    }
    assert init + [last] == row;
  }

  /**
   The row that the parser as written splits (`RoundTrip.ScatteredFieldSplits`)
   comes back whole with the restarting step.
   */
  lemma RestartScatteredField(line: String, delimiter: String)
    requires delimiter == "<|>" && line == "<x|y><|>z"
    ensures var t := RestartScanLine(Start, line, delimiter);
            !t.comment && t.row + [t.buffer] == ["<x|y>", "z"]
  {
    RoundTrip.EncodeScatteredRow(line, delimiter);
    assert FirstUnrepeated(delimiter) by {
      assert delimiter[1..] == "|>";
    }
    var row := ["<x|y>", "z"];
    assert Quote !in row[0] && Quote !in row[1];
    RestartRoundTrip(row, delimiter);
  }
}

=== FILE: encoder.dfy ===
/**
 Model of the CSV encoder (csv_encoder.hpp): one row of fields becomes one
 line of text. A field is escaped by inserting quote characters and is
 enclosed in quotes when it holds the delimiter, CR, LF or the quote; the
 fields of a row are joined with the (possibly multi-character) delimiter.

 The spec functions come first; the classes `Encoder`, `Iterator` and
 `CsvEncoder` follow the source's classes and are proved against them.
 */
module Encoding {
  import opened Text

  type Row = seq<String>

  datatype ConfigError = QuoteInDelimiter

  // ---------------------------------------------------------------------------
  // Specification of one field

  /** The characters that force enclosure besides the delimiter: CR, LF and the quote. */
  function EnclosePattern(quote: char): String
  {
    "\r\n" + [quote]
  }

  /** The enclosure test of `encode_field`, on the ORIGINAL field. */
  predicate NeedsEnclosure(field: String, delimiter: String, quote: char)
    ensures NeedsEnclosure(field, delimiter, quote) <==>
      (exists i :: OccursAt(field, delimiter, i)) ||
      (exists i :: 0 <= i < |field| && (field[i] == '\r' || field[i] == '\n' || field[i] == quote))
  {
    Contains(field, delimiter) || HasAnyOf(field, EnclosePattern(quote))
  }

  /**
   The escape loop of `encode_field`: for every index `p >= from` of `field`
   that holds the quote, in increasing order, one quote is inserted at index
   `p` of the growing `output` (an index into the original field, not into
   `output`).
   */
  function InsertQuotes(field: String, quote: char, from: nat, output: String): String
    requires |field| <= |output|
    decreases |field| - from
  {
    if from >= |field| then output
    else if field[from] == quote then
      InsertQuotes(field, quote, from + 1, output[..from] + [quote] + output[from..])
    else InsertQuotes(field, quote, from + 1, output)
  }

  /** The field after the escape loop, before enclosure. */
  function Escaped(field: String, quote: char): String
  {
    InsertQuotes(field, quote, 0, field)
  }

  /** What `encode_field` returns. */
  function EncodedField(field: String, delimiter: String, quote: char): String
  {
    var escaped := Escaped(field, quote);
    if NeedsEnclosure(field, delimiter, quote) then [quote] + escaped + [quote] else escaped
  }

  /**
   What `encode` leaves in `string` for one row: the first field, then for
   each further field the delimiter and that field (the loop's order).
   */
  function EncodedRow(row: Row, delimiter: String, quote: char): String
    decreases |row|
  {
    if row == [] then []
    else if |row| == 1 then EncodedField(row[0], delimiter, quote)
    else EncodedRow(row[..|row| - 1], delimiter, quote) + delimiter
         + EncodedField(row[|row| - 1], delimiter, quote)
  }

  /** Every field of `row`, encoded on its own. */
  function EncodedFields(row: Row, delimiter: String, quote: char): seq<String>
  {
    seq(|row|, k requires 0 <= k < |row| => EncodedField(row[k], delimiter, quote))
  }

  /** The encoded lines of all rows, in order: what a full pass yields. */
  function EncodedLines(rows: seq<Row>, delimiter: String, quote: char): (r: seq<String>)
    ensures |r| == |rows|
    ensures forall k :: 0 <= k < |rows| ==> r[k] == EncodedRow(rows[k], delimiter, quote)
    decreases |rows|
  {
    if rows == [] then []
    else EncodedLines(rows[..|rows| - 1], delimiter, quote) + [EncodedRow(rows[|rows| - 1], delimiter, quote)]
  }

  /** One more row of a range adds its encoded line at the end. */
  lemma EncodedLinesPrefix(rows: seq<Row>, p: nat, delimiter: String, quote: char)
    requires p < |rows|
    ensures EncodedLines(rows[..p + 1], delimiter, quote)
            == EncodedLines(rows[..p], delimiter, quote) + [EncodedRow(rows[p], delimiter, quote)]
  {
    var done := rows[..p + 1];
    assert done[..|done| - 1] == rows[..p] && done[|done| - 1] == rows[p];
  }

  /** A pass over two ranges one after the other yields the lines of both, in order. */
  lemma {:induction false} EncodedLinesAppend(a: seq<Row>, b: seq<Row>, delimiter: String, quote: char)
    ensures EncodedLines(a + b, delimiter, quote) == EncodedLines(a, delimiter, quote) + EncodedLines(b, delimiter, quote)
    decreases |b|
  {
    if b == [] {
      assert a + b == a;
    } else {
      var init := b[..|b| - 1];
      assert (a + b)[..|a + b| - 1] == a + init;
      assert (a + b)[|a + b| - 1] == b[|b| - 1];
      EncodedLinesAppend(a, init, delimiter, quote);
    }
  }

  /** The construction check: `Some` error exactly when the quote is part of the delimiter. */
  function CheckDelimiter(delimiter: String, quote: char): (r: Option<ConfigError>)
    ensures r.Some? <==> exists i :: 0 <= i < |delimiter| && delimiter[i] == quote
  {
    match FindChar(delimiter, quote, 0)
    case Some(_) => Some(QuoteInDelimiter)
    case None => None
  }

  // ---------------------------------------------------------------------------
  // Properties of the escape loop

  /**
   The escape loop only inserts quotes: each inserted quote adds one to the
   length and one to the quote count, and deleting the quotes gives back what
   deleting them from the starting output gave.
   */
  lemma {:induction false} InsertQuotesOnlyInsertsQuotes(field: String, quote: char, from: nat, output: String)
    requires from <= |field| <= |output|
    ensures |InsertQuotes(field, quote, from, output)| == |output| + Count(field[from..], quote)
    ensures Count(InsertQuotes(field, quote, from, output), quote) == Count(output, quote) + Count(field[from..], quote)
    ensures Without(InsertQuotes(field, quote, from, output), quote) == Without(output, quote)
    decreases |field| - from
  {
    if from < |field| {
      assert field[from..][1..] == field[from + 1..];
      if field[from] == quote {
        assert output == output[..from] + output[from..];
        InsertOneQuote(output[..from], output[from..], quote);
        InsertQuotesOnlyInsertsQuotes(field, quote, from + 1, output[..from] + [quote] + output[from..]);
      } else {
        InsertQuotesOnlyInsertsQuotes(field, quote, from + 1, output);
      }
    }
  }

  /** One quote inserted between `a` and `b`: one more quote, nothing else once quotes are deleted. */
  lemma InsertOneQuote(a: String, b: String, quote: char)
    ensures Count(a + [quote] + b, quote) == Count(a + b, quote) + 1
    ensures Without(a + [quote] + b, quote) == Without(a + b, quote)
  {
    assert Count(a + [quote] + b, quote) == Count(a + b, quote) + 1 by {
      CountAppend(a + [quote], b, quote);
      CountAppend(a, [quote], quote);
      CountAppend(a, b, quote);
    }
    assert Without(a + [quote] + b, quote) == Without(a + b, quote) by {
      WithoutAppend(a + [quote], b, quote);
      WithoutAppend(a, [quote], quote);
      WithoutAppend(a, b, quote);
    }
  }

  /** Escaping: twice the quotes, one more character per quote, the same text once quotes are deleted. */
  lemma EscapedOnlyDoublesQuoteCount(field: String, quote: char)
    ensures Count(Escaped(field, quote), quote) == 2 * Count(field, quote)
    ensures |Escaped(field, quote)| == |field| + Count(field, quote)
    ensures Without(Escaped(field, quote), quote) == Without(field, quote)
  {
    assert field[0..] == field;
    InsertQuotesOnlyInsertsQuotes(field, quote, 0, field);
  }

  /** With no quote left at or after `from`, the escape loop leaves `output` alone. */
  lemma {:induction false} InsertQuotesNoneLeft(field: String, quote: char, from: nat, output: String)
    requires |field| <= |output|
    requires forall k :: from <= k < |field| ==> field[k] != quote
    ensures InsertQuotes(field, quote, from, output) == output
    decreases |field| - from
  {
    if from < |field| {
      InsertQuotesNoneLeft(field, quote, from + 1, output);
    }
  }

  /** Indices before the next quote are skipped without touching `output`. */
  lemma {:induction false} InsertQuotesSkip(field: String, quote: char, from: nat, to: nat, output: String)
    requires from <= to <= |field| <= |output|
    requires forall k :: from <= k < to ==> field[k] != quote
    ensures InsertQuotes(field, quote, from, output) == InsertQuotes(field, quote, to, output)
    decreases (to as int) - from
  {
    if from < to {
      InsertQuotesSkip(field, quote, from + 1, to, output);
    }
  }

  /** A field without quotes is not changed by escaping. */
  lemma EscapedQuoteFree(field: String, quote: char)
    requires quote !in field
    ensures Escaped(field, quote) == field
  {
    InsertQuotesNoneLeft(field, quote, 0, field);
  }

  /** A field with exactly one quote gets that quote doubled in place. */
  lemma EscapedSingleQuote(field: String, quote: char, p: nat)
    requires p < |field| && field[p] == quote
    requires Count(field, quote) == 1
    ensures Escaped(field, quote) == field[..p] + [quote, quote] + field[p + 1..]
  {
    OnlyQuoteAt(field, quote, p);
    var next := field[..p] + [quote] + field[p..];
    assert Escaped(field, quote) == InsertQuotes(field, quote, p, field) by {
      InsertQuotesSkip(field, quote, 0, p, field);
    }
    assert InsertQuotes(field, quote, p, field) == InsertQuotes(field, quote, p + 1, next);
    assert InsertQuotes(field, quote, p + 1, next) == next by {
      InsertQuotesNoneLeft(field, quote, p + 1, next);
    }
    assert field[p..] == [quote] + field[p + 1..];
  }

  /** If the only quote of `s` is at `p`, no other index holds one. */
  lemma {:induction false} OnlyQuoteAt(s: String, quote: char, p: nat)
    requires p < |s| && s[p] == quote
    requires Count(s, quote) == 1
    ensures forall k :: 0 <= k < |s| && k != p ==> s[k] != quote
  {
    assert s == s[..p] + [quote] + s[p + 1..];
    CountAppend(s[..p] + [quote], s[p + 1..], quote);
    CountAppend(s[..p], [quote], quote);
    assert quote !in s[..p] && quote !in s[p + 1..];
    forall k | 0 <= k < |s| && k != p
      ensures s[k] != quote
    {
      if k < p {
        assert s[k] == s[..p][k];
      } else {
        assert s[k] == s[p + 1..][k - p - 1];
      }
    }
  }

  // ---------------------------------------------------------------------------
  // Properties of one encoded field

  /** A field with no quote, no delimiter occurrence, no CR and no LF is returned unchanged. */
  lemma EncodedFieldPlain(field: String, delimiter: String, quote: char)
    requires !NeedsEnclosure(field, delimiter, quote)
    ensures EncodedField(field, delimiter, quote) == field
  {
    EscapedQuoteFree(field, quote);
  }

  /**
   The encoded field is the escaped text wrapped in one leading and one
   trailing quote exactly when the original field needs enclosure; otherwise
   it is the field itself. The two cases differ in length by two.
   */
  lemma EncodedFieldEnclosure(field: String, delimiter: String, quote: char)
    ensures NeedsEnclosure(field, delimiter, quote) ==>
      EncodedField(field, delimiter, quote) == [quote] + Escaped(field, quote) + [quote]
    ensures !NeedsEnclosure(field, delimiter, quote) ==> EncodedField(field, delimiter, quote) == field
    ensures |EncodedField(field, delimiter, quote)| ==
      |field| + Count(field, quote) + (if NeedsEnclosure(field, delimiter, quote) then 2 else 0)
    ensures Count(EncodedField(field, delimiter, quote), quote) ==
      2 * Count(field, quote) + (if NeedsEnclosure(field, delimiter, quote) then 2 else 0)
  {
    EscapedOnlyDoublesQuoteCount(field, quote);
    if NeedsEnclosure(field, delimiter, quote) {
      var e := Escaped(field, quote);
      CountAppend([quote] + e, [quote], quote);
      CountAppend([quote], e, quote);
    } else {
      EncodedFieldPlain(field, delimiter, quote);
    }
  }

  // ---------------------------------------------------------------------------
  // Properties of one encoded row

  /** `encode` is the encoded fields joined with the delimiter: nothing for an empty row, no leading or trailing delimiter. */
  lemma {:induction false} EncodedRowIsJoin(row: Row, delimiter: String, quote: char)
    ensures EncodedRow(row, delimiter, quote) == Join(EncodedFields(row, delimiter, quote), delimiter)
    decreases |row|
  {
    if |row| > 1 {
      var init := row[..|row| - 1];
      EncodedRowIsJoin(init, delimiter, quote);
      var fields := EncodedFields(row, delimiter, quote);
      assert fields == EncodedFields(init, delimiter, quote) + [fields[|row| - 1]];
      JoinSnoc(EncodedFields(init, delimiter, quote), fields[|row| - 1], delimiter);
    }
  }

  /** Putting one field in front of a row puts its encoding and one delimiter in front of the line. */
  lemma EncodedRowCons(field: String, row: Row, delimiter: String, quote: char)
    requires row != []
    ensures EncodedRow([field] + row, delimiter, quote) ==
      EncodedField(field, delimiter, quote) + delimiter + EncodedRow(row, delimiter, quote)
  {
    EncodedRowIsJoin([field] + row, delimiter, quote);
    EncodedRowIsJoin(row, delimiter, quote);
    assert EncodedFields([field] + row, delimiter, quote)[1..] == EncodedFields(row, delimiter, quote);
  }

  /** A row of three fields: first, delimiter, second, delimiter, third. */
  lemma ThreeFieldRow(row: Row, delimiter: String, quote: char)
    requires |row| == 3
    ensures EncodedRow(row, delimiter, quote) ==
      EncodedField(row[0], delimiter, quote) + delimiter + EncodedField(row[1], delimiter, quote)
      + delimiter + EncodedField(row[2], delimiter, quote)
  {
    var init := row[..2];
    assert EncodedRow(row, delimiter, quote) ==
      EncodedRow(init, delimiter, quote) + delimiter + EncodedField(row[2], delimiter, quote);
    assert init[..1] == row[..1];
    assert EncodedRow(init, delimiter, quote) ==
      EncodedRow(init[..1], delimiter, quote) + delimiter + EncodedField(row[1], delimiter, quote);
  }

  /** A field none of whose characters is the quote, CR, LF or the delimiter's first character encodes to itself. */
  lemma PlainField(field: String, delimiter: String, quote: char)
    requires delimiter != []
    requires forall i :: 0 <= i < |field| ==>
      field[i] != quote && field[i] != '\r' && field[i] != '\n' && field[i] != delimiter[0]
    ensures EncodedField(field, delimiter, quote) == field
  {
    forall i: nat
      ensures !OccursAt(field, delimiter, i)
    {
      if i + |delimiter| <= |field| {
        assert field[i..i + |delimiter|][0] == field[i] != delimiter[0];
      }
    }
    EncodedFieldPlain(field, delimiter, quote);
  }

  // ---------------------------------------------------------------------------
  // The escape loop against its evident intent

  /** The intended escaping: every quote replaced by two quotes, in place. */
  function DoubledQuotes(field: String, quote: char): (r: String)
    ensures |r| == |field| + Count(field, quote)
  {
    if field == [] then []
    else (if field[0] == quote then [quote, quote] else [field[0]]) + DoubledQuotes(field[1..], quote)
  }

  /** Undoes `DoubledQuotes`: a pair of quotes becomes one quote. */
  function Undoubled(s: String, quote: char): String
    decreases |s|
  {
    if s == [] then []
    else if |s| >= 2 && s[0] == quote && s[1] == quote then [quote] + Undoubled(s[2..], quote)
    else [s[0]] + Undoubled(s[1..], quote)
  }

  /** Undoubling the doubled quotes gives back the field. */
  lemma {:induction false} UndoubledDoubledQuotes(field: String, quote: char)
    ensures Undoubled(DoubledQuotes(field, quote), quote) == field
  {
    if field != [] {
      var rest := DoubledQuotes(field[1..], quote);
      UndoubledDoubledQuotes(field[1..], quote);
      if field[0] == quote {
        assert ([quote, quote] + rest)[2..] == rest;
      } else {
        assert ([field[0]] + rest)[1..] == rest;
      }
    }
  }

  lemma {:induction false} DoubledQuotesAppend(a: String, b: String, quote: char)
    ensures DoubledQuotes(a + b, quote) == DoubledQuotes(a, quote) + DoubledQuotes(b, quote)
  {
    if a != [] {
      assert (a + b)[1..] == a[1..] + b;
      DoubledQuotesAppend(a[1..], b, quote);
    } else {
      assert a + b == b;
    }
  }

  lemma {:induction false} DoubledQuotesQuoteFree(field: String, quote: char)
    requires quote !in field
    ensures DoubledQuotes(field, quote) == field
  {
    if field != [] {
      DoubledQuotesQuoteFree(field[1..], quote);
    }
  }

  /** A lone quote between quote-free text is doubled. */
  lemma DoubledQuotesSingle(a: String, b: String, quote: char)
    requires quote !in a && quote !in b
    ensures DoubledQuotes(a + [quote] + b, quote) == a + [quote, quote] + b
  {
    calc {
      DoubledQuotes(a + [quote] + b, quote);
      { DoubledQuotesAppend(a + [quote], b, quote); }
      DoubledQuotes(a + [quote], quote) + DoubledQuotes(b, quote);
      { DoubledQuotesAppend(a, [quote], quote); }
      DoubledQuotes(a, quote) + DoubledQuotes([quote], quote) + DoubledQuotes(b, quote);
      { DoubledQuotesQuoteFree(a, quote); DoubledQuotesQuoteFree(b, quote); }
      a + DoubledQuotes([quote], quote) + b;
      { assert [quote][1..] == []; }
      a + [quote, quote] + b;
    }
  }

  /** With at most one quote, the source's escape loop does what was intended. */
  lemma EscapedIntendedUpToOneQuote(field: String, quote: char)
    requires Count(field, quote) <= 1
    ensures Escaped(field, quote) == DoubledQuotes(field, quote)
  {
    if Count(field, quote) == 0 {
      EscapedQuoteFree(field, quote);
      DoubledQuotesQuoteFree(field, quote);
    } else {
      var p :| 0 <= p < |field| && field[p] == quote;
      EscapedSingleQuote(field, quote, p);
      OnlyQuoteAt(field, quote, p);
      var a, b := field[..p], field[p + 1..];
      assert field == a + [quote] + b;
      assert quote !in a by {
        forall k | 0 <= k < |a| ensures a[k] != quote { assert a[k] == field[k]; }
      }
      assert quote !in b by {
        forall k | 0 <= k < |b| ensures b[k] != quote { assert b[k] == field[p + 1 + k]; }
      }
      DoubledQuotesSingle(a, b, quote);
    }
  }

  /**
   With two quotes the insertions drift: the second quote is inserted one
   character too early, so `a"b"c` escapes to `a"""b"c` instead of `a""b""c`.
   */
  lemma EscapedDriftExample()
    ensures Escaped("a\"b\"c", '"') == "a\"\"\"b\"c"
    ensures DoubledQuotes("a\"b\"c", '"') == "a\"\"b\"\"c"
    ensures Escaped("a\"b\"c", '"') != DoubledQuotes("a\"b\"c", '"')
  {
    var f, q := "a\"b\"c", '"';
    var o1 := f[..1] + [q] + f[1..];
    assert o1 == "a\"\"b\"c";
    var o2 := o1[..3] + [q] + o1[3..];
    assert o2 == "a\"\"\"b\"c";
    assert InsertQuotes(f, q, 0, f) == InsertQuotes(f, q, 1, f);
    assert InsertQuotes(f, q, 1, f) == InsertQuotes(f, q, 2, o1);
    assert InsertQuotes(f, q, 2, o1) == InsertQuotes(f, q, 3, o1);
    assert InsertQuotes(f, q, 3, o1) == InsertQuotes(f, q, 4, o2);
    assert InsertQuotes(f, q, 4, o2) == InsertQuotes(f, q, 5, o2);
    assert f[1..][1..][1..][1..][1..] == [];
    assert o2[7 - 1] == 'c';
  }

  /** `encode_field` with the intended escaping. */
  function EncodedFieldIntended(field: String, delimiter: String, quote: char): String
  {
    var escaped := DoubledQuotes(field, quote);
    if NeedsEnclosure(field, delimiter, quote) then [quote] + escaped + [quote] else escaped
  }

  /** Reads one encoded field back: strips an enclosure, then undoubles quotes. */
  function DecodedField(s: String, quote: char): String
  {
    if |s| >= 2 && s[0] == quote && s[|s| - 1] == quote then Undoubled(s[1..|s| - 1], quote)
    else Undoubled(s, quote)
  }

  /** With the intended escaping, every field survives an encode/decode round trip. */
  lemma DecodedEncodedFieldIntended(field: String, delimiter: String, quote: char)
    ensures DecodedField(EncodedFieldIntended(field, delimiter, quote), quote) == field
  {
    var escaped := DoubledQuotes(field, quote);
    UndoubledDoubledQuotes(field, quote);
    if NeedsEnclosure(field, delimiter, quote) {
      var s := [quote] + escaped + [quote];
      assert s[1..|s| - 1] == escaped;
    } else {
      assert quote !in field;
      DoubledQuotesQuoteFree(field, quote);
      if |field| >= 2 && field[0] == quote {
        assert false;
      }
    }
  }

  // ---------------------------------------------------------------------------
  // The source's classes

  /** `CSVEncoder::Encoder`: the configuration, a cursor into the rows and the last encoded line. */
  class Encoder {
    const delimiter: String
    const quote: char
    /** The rows of the source range; `source_end` is `|rows|`. */
    const rows: seq<Row>
    /** `source_iter`, as an index into `rows`. */
    var position: nat
    /** `string`: the last encoded line. */
    var line: String

    constructor (rows: seq<Row>, position: nat, delimiter: String, quote: char)
      ensures this.rows == rows && this.position == position
      ensures this.delimiter == delimiter && this.quote == quote && line == []
    {
      this.rows := rows;
      this.position := position;
      this.delimiter := delimiter;
      this.quote := quote;
      line := [];
    }

    /** The line of the row under the cursor. */
    function Current(): String
      reads this
      requires position < |rows|
    {
      EncodedRow(rows[position], delimiter, quote)
    }

    /** `reset`: moves the cursor to `start`; the last line stays. */
    method Reset(start: nat)
      modifies this`position
      ensures position == start
    {
      position := start;
    }

    /** `next`: advances the cursor by exactly one row. */
    method Next()
      modifies this`position
      ensures position == old(position) + 1
    {
      position := position + 1;
    }

    /**
     `encode`: rebuilds `line` from the row under the cursor alone. The cursor
     does not move. The row under the cursor must exist (dereferencing
     `source_end` is undefined).
     */
    method Encode()
      requires position < |rows|
      modifies this`line
      ensures line == EncodedRow(rows[position], delimiter, quote)
    {
      line := [];
      var row := rows[position];
      var i := 0;
      if i != |row| {
        var encoded := EncodeField(row[i]);
        line := line + encoded;
        i := i + 1;
      }
      while i != |row|
        invariant 0 <= i <= |row|
        invariant i == 0 <==> row == []
        invariant line == EncodedRow(row[..i], delimiter, quote)
      {
        var encoded := EncodeField(row[i]);
        assert row[..i + 1][..i] == row[..i];
        line := line + delimiter + encoded;
        i := i + 1;
      }
      assert row[..i] == row;
    }

    /** `encode_field`: escapes the quotes with the source's loop, then encloses if needed. */
    method EncodeField(field: String) returns (output: String)
      ensures output == EncodedField(field, delimiter, quote)
    {
      output := field;
      var position := FindChar(field, quote, 0);
      ghost var from: nat := 0;
      while position.Some?
        invariant from <= |field| <= |output|
        invariant position == FindChar(field, quote, from)
        invariant InsertQuotes(field, quote, from, output) == Escaped(field, quote)
        decreases |field| - from
      {
        var p := position.value;
        InsertQuotesSkip(field, quote, from, p, output);
        output := output[..p] + [quote] + output[p..];
        from := p + 1;
        position := FindChar(field, quote, p + 1);
      }
      InsertQuotesNoneLeft(field, quote, from, output);
      if Contains(field, delimiter) || HasAnyOf(field, EnclosePattern(quote)) {
        output := [quote] + output + [quote];
      }
    }
  }

  /**
   `CSVEncoder::Iterator`: walks an `Encoder`, caching the last line. `update`
   says whether the cache must be rebuilt before it is read.
   */
  class Iterator {
    const encoder: Encoder
    var update: bool
    var line: String

    constructor (encoder: Encoder)
      ensures this.encoder == encoder && update && line == []
    {
      this.encoder := encoder;
      update := true;
      line := [];
    }

    /** The copy made by postfix `++`: same encoder and line, cache marked current. */
    constructor Copy(encoder: Encoder, line: String)
      ensures this.encoder == encoder && !update && this.line == line
    {
      this.encoder := encoder;
      update := false;
      this.line := line;
    }

    /** When the cache is marked current, it holds the line of the row under the cursor. */
    ghost predicate InSync()
      reads this, encoder
    {
      !update ==> encoder.position < |encoder.rows| && line == encoder.Current()
    }

    /** Prefix `++`: advances the encoder and marks the cache stale. */
    method Increment()
      modifies encoder`position, this`update
      ensures encoder.position == old(encoder.position) + 1 && update
      ensures InSync()
    {
      encoder.Next();
      update := true;
    }

    /**
     Postfix `++`: returns a copy holding the cached line (encoding it first if
     the cache is stale), then advances as prefix `++` does. The copy shares
     the encoder, so a copy whose cache is current keeps its line even after
     the shared cursor has moved on; advancing the copy moves that cursor too.
     */
    method PostIncrement() returns (copy: Iterator)
      requires update ==> encoder.position < |encoder.rows|
      modifies this`update, this`line, encoder`position, encoder`line
      ensures fresh(copy) && copy.encoder == encoder && !copy.update
      ensures copy.line == if old(update) then EncodedRow(encoder.rows[old(encoder.position)], encoder.delimiter, encoder.quote)
                           else old(line)
      ensures line == copy.line
      ensures encoder.line == if old(update) then copy.line else old(encoder.line)
      ensures old(InSync()) ==> old(encoder.position) < |encoder.rows| &&
                                copy.line == EncodedRow(encoder.rows[old(encoder.position)], encoder.delimiter, encoder.quote)
      ensures encoder.position == old(encoder.position) + 1 && update
      ensures InSync()
    {
      if update {
        encoder.Encode();
        line := encoder.line;
      }
      copy := new Iterator.Copy(encoder, line);
      encoder.Next();
      update := true;
    }

    /** `*it`: the cached line, rebuilt first when stale. */
    method Deref() returns (r: String)
      requires update ==> encoder.position < |encoder.rows|
      modifies this`update, this`line, encoder`line
      ensures r == if old(update) then EncodedRow(encoder.rows[encoder.position], encoder.delimiter, encoder.quote)
                   else old(line)
      ensures !update && line == r
      ensures encoder.line == if old(update) then r else old(encoder.line)
      ensures old(InSync()) ==> InSync()
    {
      if update {
        encoder.Encode();
        line := encoder.line;
        update := false;
      }
      r := line;
    }

    /** `==`: the two encoders' cursors are at the same row. */
    method Equals(other: Iterator) returns (b: bool)
      ensures b <==> encoder.position == other.encoder.position
    {
      b := encoder.position == other.encoder.position;
    }

    /** `!=`: the two encoders' cursors are at different rows. */
    method NotEquals(other: Iterator) returns (b: bool)
      ensures b <==> encoder.position != other.encoder.position
    {
      b := encoder.position != other.encoder.position;
    }
  }

  /** `CSVEncoder`: the source range, a working encoder and one parked at the end. */
  class CsvEncoder {
    const rows: seq<Row>
    const delimiter: String
    const quote: char
    const encoder: Encoder
    const encoderEnd: Encoder

    ghost predicate Valid()
      reads this, encoder, encoderEnd
    {
      && encoder != encoderEnd
      && encoder.rows == rows && encoderEnd.rows == rows
      && encoder.delimiter == delimiter && encoder.quote == quote
      && encoderEnd.position == |rows|
    }

    constructor Init(rows: seq<Row>, delimiter: String, quote: char)
      ensures Valid() && fresh(encoder) && fresh(encoderEnd)
      ensures this.rows == rows && this.delimiter == delimiter && this.quote == quote
      ensures encoder.position == 0
      ensures encoderEnd.delimiter == "," && encoderEnd.quote == '"'
    {
      this.rows := rows;
      this.delimiter := delimiter;
      this.quote := quote;
      encoder := new Encoder(rows, 0, delimiter, quote);
      // The end encoder is built from the end position alone, so it has the default configuration.
      encoderEnd := new Encoder(rows, |rows|, ",", '"');
    }

    /** The constructor: refuses a delimiter that contains the quote character. */
    static method Create(rows: seq<Row>, delimiter: String, quote: char) returns (r: Result)
      ensures r.Failure? <==> quote in delimiter
      ensures r.Failure? ==> r.error == QuoteInDelimiter
      ensures r.Success? ==> fresh(r.value) && fresh(r.value.encoder) && fresh(r.value.encoderEnd)
      ensures r.Success? ==> r.value.Valid() && r.value.rows == rows
      ensures r.Success? ==> r.value.delimiter == delimiter && r.value.quote == quote
    {
      var check := CheckDelimiter(delimiter, quote);
      if check.Some? {
        r := Failure(check.value);
      } else {
        var enc := new CsvEncoder.Init(rows, delimiter, quote);
        r := Success(enc);
      }
    }

    /** `begin()`: resets the working encoder to the first row and wraps it. */
    method Begin() returns (it: Iterator)
      requires Valid()
      modifies encoder`position
      ensures Valid() && fresh(it) && it.encoder == encoder && it.update && it.line == []
      ensures encoder.position == 0
    {
      encoder.Reset(0);
      it := new Iterator(encoder);
    }

    /** `end()`: an iterator over the encoder parked at the end of the range. */
    method End() returns (it: Iterator)
      requires Valid()
      ensures fresh(it) && it.encoder == encoderEnd && it.update && it.line == []
      ensures it.encoder.position == |rows|
    {
      it := new Iterator(encoderEnd);
    }

    /**
     A full pass, `for (auto line : encoder)`: begin, then dereference and
     advance until equal to end. Whatever state the encoder was left in, the
     pass yields the encoded line of every row in order, so two passes agree.
     */
    method Lines() returns (out: seq<String>)
      requires Valid()
      modifies encoder`position, encoder`line
      ensures Valid()
      ensures out == EncodedLines(rows, delimiter, quote)
    {
      var it := Begin();
      var last := End();
      out := [];
      ghost var k: nat := 0;
      var more := it.NotEquals(last);
      while more
        invariant Valid() && it.encoder == encoder && fresh(it) && it.update
        invariant k == encoder.position <= |rows|
        invariant more <==> k != |rows|
        invariant out == EncodedLines(rows[..k], delimiter, quote)
        decreases |rows| - k
      {
        EncodedLinesPrefix(rows, k, delimiter, quote);
        var line := it.Deref();
        assert line == EncodedRow(rows[k], delimiter, quote);
        out := out + [line];
        it.Increment();
        k := k + 1;
        more := it.NotEquals(last);
      }
      assert rows[..k] == rows;
    }
  }

  datatype Result = Success(value: CsvEncoder) | Failure(error: ConfigError)
}

=== FILE: encoder_tests.dfy ===
/**
 The expected lines of the encoder's test file (tests/test_csv_encoder.cpp),
 proved about the model.
 */
module EncoderTests {
  import opened Text
  import opened Encoding

  /** The first row of the encoder test, with delimiter `<|>`: every field is enclosed, the lone quote doubled in place. */
  lemma {:induction false} EncodedRowTestSimpleFirst(f0: String, f1: String, f2: String, d: String)
    requires f0 == "val_1<|>" && f1 == "\"val_2" && f2 == "val\n3" && d == "<|>"
    ensures EncodedRow([f0, f1, f2], d, '"') == "\"val_1<|>\"<|>\"\"\"val_2\"<|>\"val\n3\""
  {
    FieldHoldingDelimiter(f0, d);
    FieldWithLeadingQuote(f1, d);
    FieldHoldingNewline(f2, d);
    ThreeFieldRow([f0, f1, f2], d, '"');
    ExpectedFirstLine("\"val_1<|>\"", "\"\"\"val_2\"", "\"val\n3\"", d);
  }

  /**
   Proof helper: the expected first line, cut at its delimiters. Kept apart
   so that the literal is split once, in a small context.
   */
  lemma ExpectedFirstLine(e0: String, e1: String, e2: String, d: String)
    requires e0 == "\"val_1<|>\"" && e1 == "\"\"\"val_2\"" && e2 == "\"val\n3\"" && d == "<|>"
    ensures e0 + d + e1 + d + e2 == "\"val_1<|>\"<|>\"\"\"val_2\"<|>\"val\n3\""
  {
  }

  /** A field holding the whole delimiter is enclosed. */
  lemma {:induction false} FieldHoldingDelimiter(f: String, d: String)
    requires f == "val_1<|>" && d == "<|>"
    ensures EncodedField(f, d, '"') == "\"val_1<|>\""
  {
    assert OccursAt(f, d, 5);
    assert '"' !in f;
    EscapedQuoteFree(f, '"');
  }

  /** A field starting with a quote: the quote is doubled and the field enclosed. */
  lemma {:induction false} FieldWithLeadingQuote(f: String, d: String)
    requires f == "\"val_2" && d == "<|>"
    ensures EncodedField(f, d, '"') == "\"\"\"val_2\""
  {
    assert f == ['"'] + "val_2";
    CountAppend(['"'], "val_2", '"');
    EscapedSingleQuote(f, '"', 0);
    assert f[0] == '"';
  }

  /** A field holding LF is enclosed. */
  lemma {:induction false} FieldHoldingNewline(f: String, d: String)
    requires f == "val\n3" && d == "<|>"
    ensures EncodedField(f, d, '"') == "\"val\n3\""
  {
    assert f[3] == '\n';
    assert '"' !in f;
    EscapedQuoteFree(f, '"');
  }

  /** The second row of the encoder test: only the field holding CR is enclosed. */
  lemma {:induction false} EncodedRowTestSimpleSecond(f0: String, f1: String, f2: String, d: String)
    requires f0 == "v\ral_4" && f1 == "val_5" && f2 == "val_6" && d == "<|>"
    ensures EncodedRow([f0, f1, f2], d, '"') == "\"v\ral_4\"<|>val_5<|>val_6"
  {
    FieldHoldingCarriageReturn(f0, d);
    PlainField(f1, d, '"');
    PlainField(f2, d, '"');
    ThreeFieldRow([f0, f1, f2], d, '"');
    ExpectedSecondLine("\"v\ral_4\"", f1, f2, d);
  }

  /** Proof helper: the expected second line, cut at its delimiters. */
  lemma ExpectedSecondLine(e0: String, e1: String, e2: String, d: String)
    requires e0 == "\"v\ral_4\"" && e1 == "val_5" && e2 == "val_6" && d == "<|>"
    ensures e0 + d + e1 + d + e2 == "\"v\ral_4\"<|>val_5<|>val_6"
  {
  }

  /** A field holding CR is enclosed. */
  lemma {:induction false} FieldHoldingCarriageReturn(f: String, d: String)
    requires f == "v\ral_4" && d == "<|>"
    ensures EncodedField(f, d, '"') == "\"v\ral_4\""
  {
    assert f[1] == '\r';
    assert '"' !in f;
    EscapedQuoteFree(f, '"');
  }

  /**
   The postfix test: after `prev = begin++`, `*begin` is the second row's line
   and `*prev` still the first row's.
   */
  method IterPostfixTest() returns (current: String, previous: String)
    ensures current == "Second" && previous == "First"
  {
    var source: seq<Row> := [["First"], ["Second"]];
    PostfixLines(source, ",");
    var created := CsvEncoder.Create(source, ",", '"');
    var encoder := created.value;
    var begin := encoder.Begin();
    var prev := begin.PostIncrement();
    current := begin.Deref();
    previous := prev.Deref();
  }

  /**
   Advancing the copy that postfix `++` returned: the copy keeps its cached
   first line, its own copy inherits that line, and since both iterators
   share one encoder, the cursor has moved two rows, so the copy now yields
   the third row's line.
   */
  method IterCopyIncrementTest() returns (kept: String, skipped: String, current: String)
    ensures kept == "First" && skipped == "Third" && current == "Third"
  {
    var source: seq<Row> := [["First"], ["Second"], ["Third"]];
    CopyLines(source, ",");
    var created := CsvEncoder.Create(source, ",", '"');
    var encoder := created.value;
    var begin := encoder.Begin();
    var prev := begin.PostIncrement();
    var prevCopy := prev.PostIncrement();
    kept := prevCopy.Deref();
    skipped := prev.Deref();
    current := begin.Deref();
  }

  /** The rows of the copy test encode to themselves, and the default delimiter is accepted. */
  lemma CopyLines(source: seq<Row>, delimiter: String)
    requires source == [["First"], ["Second"], ["Third"]] && delimiter == ","
    ensures '"' !in delimiter && |source| == 3
    ensures EncodedRow(source[0], delimiter, '"') == "First"
    ensures EncodedRow(source[2], delimiter, '"') == "Third"
  {
    assert EncodedRow(source[0], delimiter, '"') == "First" by {
      PlainField(source[0][0], delimiter, '"');
    }
    assert EncodedRow(source[2], delimiter, '"') == "Third" by {
      PlainField(source[2][0], delimiter, '"');
    }
  }

  /** The rows of `test_iter_postfix` encode to themselves, and the default delimiter is accepted. */
  lemma PostfixLines(source: seq<Row>, delimiter: String)
    requires source == [["First"], ["Second"]] && delimiter == ","
    ensures '"' !in delimiter && |source| == 2
    ensures EncodedRow(source[0], delimiter, '"') == "First"
    ensures EncodedRow(source[1], delimiter, '"') == "Second"
  {
    assert EncodedRow(source[0], delimiter, '"') == "First" by {
      PlainField(source[0][0], delimiter, '"');
    }
    assert EncodedRow(source[1], delimiter, '"') == "Second" by {
      PlainField(source[1][0], delimiter, '"');
    }
  }

  /**
   `test_simple_1`: a full pass over the two rows with delimiter `<|>`
   yields exactly the two expected lines.
   */
  method TestSimple() returns (output: seq<String>)
    ensures output == ["\"val_1<|>\"<|>\"\"\"val_2\"<|>\"val\n3\"", "\"v\ral_4\"<|>val_5<|>val_6"]
  {
    var source: seq<Row> := [["val_1<|>", "\"val_2", "val\n3"], ["v\ral_4", "val_5", "val_6"]];
    var delimiter := "<|>";
    SimpleLines(source, delimiter);
    var created := CsvEncoder.Create(source, delimiter, '"');
    var encoder := created.value;
    output := encoder.Lines();
  }

  /** The encoded lines of the rows of `test_simple_1`, and the delimiter is accepted. */
  lemma SimpleLines(source: seq<Row>, delimiter: String)
    requires source == [["val_1<|>", "\"val_2", "val\n3"], ["v\ral_4", "val_5", "val_6"]]
    requires delimiter == "<|>"
    ensures '"' !in delimiter
    ensures EncodedLines(source, delimiter, '"')
            == ["\"val_1<|>\"<|>\"\"\"val_2\"<|>\"val\n3\"", "\"v\ral_4\"<|>val_5<|>val_6"]
  {
    var first, second := source[0], source[1];
    assert EncodedLines(source, delimiter, '"')
           == [EncodedRow(first, delimiter, '"'), EncodedRow(second, delimiter, '"')];
    assert EncodedRow(first, delimiter, '"') == "\"val_1<|>\"<|>\"\"\"val_2\"<|>\"val\n3\"" by {
      assert first == [first[0], first[1], first[2]];
      EncodedRowTestSimpleFirst(first[0], first[1], first[2], delimiter);
    }
    assert EncodedRow(second, delimiter, '"') == "\"v\ral_4\"<|>val_5<|>val_6" by {
      assert second == [second[0], second[1], second[2]];
      EncodedRowTestSimpleSecond(second[0], second[1], second[2], delimiter);
    }
  }
}

=== FILE: parser.dfy ===
/**
 Model of the CSV parser (csv_parser.hpp): a source of lines becomes a
 sequence of rows, one row per call of `next`.

 The state between characters is `buffer` (the field being read),
 `comment` (toggled by every `"`), `delimCount` (how many characters of the
 delimiter have been matched so far) and `row` (the fields pushed so far).
 A `"` is never stored. Outside a comment, a character equal to the next
 expected delimiter character is stored and advances `delimCount`; once the
 whole delimiter has been matched the field is `buffer` minus its last
 `|delimiter|` characters. A mismatch does not reset `delimCount`. A line
 that ends inside a comment does not end the row: the next line continues
 the same field with nothing inserted between the two.

 The spec functions (`Step`, `ScanLine`, `ParseFrom`, `NextRow`) come first;
 the class `Iterator` follows the source's class and is proved against them.
 */
module Parsing {
  import opened Text

  type Row = seq<String>

  /** The quote is hard-coded in the parser. */
  const Quote: char := '"'

  /** The parsing state between two characters. */
  datatype Scan = Scan(buffer: String, comment: bool, delimCount: nat, row: Row)

  /** The state at the start of `next`. */
  const Start: Scan := Scan([], false, 0, [])

  /** The string terminator, which `delimiter[delim_count]` reads at `delim_count == delimiter.size()`. */
  const Nul: char := '\0'

  /**
   The invariant between characters: the position in the delimiter is in
   range (or 0 for the empty delimiter) and never exceeds what is buffered,
   so cutting the delimiter off the end of the buffer never underflows.
   */
  predicate Bounded(s: Scan, delimiter: String)
  {
    (s.delimCount < |delimiter| || s.delimCount == 0) && s.delimCount <= |s.buffer|
  }

  /**
   The character the parser compares with: `delimiter[delim_count]`, which is
   the terminator when the delimiter is empty.
   */
  function Expected(s: Scan, delimiter: String): char
    requires Bounded(s, delimiter)
  {
    if |delimiter| == 0 then Nul else delimiter[s.delimCount]
  }

  /**
   With an empty delimiter, a terminator read outside a comment would match
   it and move `delim_count` past the end of the string; the next comparison
   would then read out of range. A line is safe to scan when the delimiter
   is non-empty or the line holds no terminator.
   */
  predicate NulFree(line: String, delimiter: String)
  {
    |delimiter| > 0 || Nul !in line
  }

  /** Every line from `pos` on is safe to scan. */
  predicate LinesNulFree(lines: seq<String>, pos: nat, delimiter: String)
  {
    forall k :: pos <= k < |lines| ==> NulFree(lines[k], delimiter)
  }

  /** No quote in the buffer nor in any pushed field. */
  predicate QuoteFree(s: Scan)
  {
    Quote !in s.buffer && forall k :: 0 <= k < |s.row| ==> Quote !in s.row[k]
  }

  /** One character of the inner loop. */
  function Step(s: Scan, c: char, delimiter: String): (t: Scan)
    requires Bounded(s, delimiter)
    requires |delimiter| > 0 || s.comment || c != Nul
    ensures Bounded(t, delimiter)
    ensures t.comment == (if c == Quote then !s.comment else s.comment)
    ensures |s.row| <= |t.row| <= |s.row| + 1 && t.row[..|s.row|] == s.row
    ensures QuoteFree(s) ==> QuoteFree(t)
  {
    if c == Quote then s.(comment := !s.comment)
    else if !s.comment && c == Expected(s, delimiter) then
      var buffer := s.buffer + [c];
      if s.delimCount + 1 == |delimiter| then
        Scan([], s.comment, 0, s.row + [buffer[..|buffer| - |delimiter|]])
      else s.(buffer := buffer, delimCount := s.delimCount + 1)
    else s.(buffer := s.buffer + [c])
  }

  /** The inner loop over the characters of one line. */
  function ScanLine(s: Scan, line: String, delimiter: String): (t: Scan)
    requires Bounded(s, delimiter) && NulFree(line, delimiter)
    ensures Bounded(t, delimiter)
    ensures |s.row| <= |t.row| && t.row[..|s.row|] == s.row
    ensures QuoteFree(s) ==> QuoteFree(t)
    decreases |line|
  {
    if line == [] then s
    else ScanLine(Step(s, line[0], delimiter), line[1..], delimiter)
  }

  /** A line toggles the quote state once per quote it holds: an odd count flips it. */
  lemma {:induction false} ScanLineQuoteParity(s: Scan, line: String, delimiter: String)
    requires Bounded(s, delimiter) && NulFree(line, delimiter)
    ensures ScanLine(s, line, delimiter).comment == (if Count(line, Quote) % 2 == 0 then s.comment else !s.comment)
    decreases |line|
  {
    if line != [] {
      assert line[0] in line;
      var t := Step(s, line[0], delimiter);
      ScanLineQuoteParity(t, line[1..], delimiter);
      if line[0] == Quote {
        assert Count(line, Quote) == Count(line[1..], Quote) + 1;
        OneMoreFlips(Count(line[1..], Quote));
      } else {
        assert Count(line, Quote) == Count(line[1..], Quote);
      }
    }
  }

  /** One more toggle flips the parity. */
  lemma OneMoreFlips(n: nat)
    ensures (n + 1) % 2 == 0 <==> n % 2 != 0
  {
  }

  /** The result of `next`: the row and the index of the first line not consumed. */
  datatype Parsed = Parsed(row: Row, next: nat)

  /**
   The outer loop from line `pos` on: scan a line; if no comment is open the
   buffer is pushed as the last field and the row ends; otherwise the next
   line continues. When the lines run out the buffer is not pushed.
   */
  function ParseFrom(lines: seq<String>, pos: nat, s: Scan, delimiter: String): (r: Parsed)
    requires pos <= |lines| && Bounded(s, delimiter) && LinesNulFree(lines, pos, delimiter)
    ensures pos <= r.next <= |lines|
    ensures pos < |lines| ==> pos < r.next
    ensures |s.row| <= |r.row| && r.row[..|s.row|] == s.row
    decreases |lines| - pos
  {
    if pos == |lines| then Parsed(s.row, pos)
    else
      var t := ScanLine(s, lines[pos], delimiter);
      if !t.comment then Parsed(t.row + [t.buffer], pos + 1)
      else ParseFrom(lines, pos + 1, t, delimiter)
  }

  /**
   What `next` computes from line `pos`: the row is emptied first, and the
   cursor only moves forward.
   */
  function NextRow(lines: seq<String>, pos: nat, delimiter: String): (r: Parsed)
    requires pos <= |lines| && LinesNulFree(lines, pos, delimiter)
    ensures pos == |lines| ==> r == Parsed([], pos)
    ensures pos < |lines| ==> pos < r.next <= |lines|
  {
    if pos == |lines| then Parsed([], pos) else ParseFrom(lines, pos, Start, delimiter)
  }

  // ---------------------------------------------------------------------------
  // Properties of the character loop

  /** Scanning two pieces one after the other is scanning their concatenation. */
  lemma {:induction false} ScanLineAppend(s: Scan, a: String, b: String, delimiter: String)
    requires Bounded(s, delimiter) && NulFree(a + b, delimiter)
    ensures ScanLine(s, a + b, delimiter) == ScanLine(ScanLine(s, a, delimiter), b, delimiter)
    decreases |a|
  {
    if a == [] {
      assert a + b == b;
    } else {
      assert (a + b)[0] == a[0];
      assert (a + b)[1..] == a[1..] + b;
      assert a[0] in a + b;
      ScanLineAppend(Step(s, a[0], delimiter), a[1..], b, delimiter);
    }
  }

  /** Scanning a non-empty piece is one step and then the rest. */
  lemma ScanLineCons(s: Scan, c: char, rest: String, delimiter: String)
    requires Bounded(s, delimiter) && NulFree([c] + rest, delimiter)
    ensures ScanLine(s, [c] + rest, delimiter) == ScanLine(Step(s, c, delimiter), rest, delimiter)
  {
    assert ([c] + rest)[0] == c && ([c] + rest)[1..] == rest;
  }

  /** Outside a comment, a character that is neither a quote nor the expected one is stored. */
  lemma MismatchIsStored(s: Scan, c: char, rest: String, delimiter: String, t: Scan)
    requires |delimiter| > 0 && Bounded(s, delimiter) && !s.comment
    requires c != Quote && c != delimiter[s.delimCount]
    requires t == Scan(s.buffer + [c], false, s.delimCount, s.row)
    ensures ScanLine(s, [c] + rest, delimiter) == ScanLine(t, rest, delimiter)
  {
    assert Step(s, c, delimiter) == t;
    ScanLineCons(s, c, rest, delimiter);
  }

  /** Outside a comment, the expected character short of the last one is stored and advances the match. */
  lemma MatchAdvances(s: Scan, c: char, rest: String, delimiter: String, t: Scan)
    requires |delimiter| > 0 && Bounded(s, delimiter) && !s.comment
    requires c == delimiter[s.delimCount] && c != Quote && s.delimCount + 1 < |delimiter|
    requires t == Scan(s.buffer + [c], false, s.delimCount + 1, s.row)
    ensures ScanLine(s, [c] + rest, delimiter) == ScanLine(t, rest, delimiter)
  {
    assert Step(s, c, delimiter) == t;
    ScanLineCons(s, c, rest, delimiter);
  }

  /**
   Outside a comment, the last delimiter character pushes the buffer minus
   the delimiter's length of characters and empties the buffer.
   */
  lemma MatchCompletes(s: Scan, c: char, rest: String, delimiter: String, t: Scan)
    requires |delimiter| > 0 && Bounded(s, delimiter) && !s.comment
    requires c == delimiter[s.delimCount] && c != Quote && s.delimCount + 1 == |delimiter|
    requires t == Scan([], false, 0, s.row + [(s.buffer + [c])[..|s.buffer| + 1 - |delimiter|]])
    ensures ScanLine(s, [c] + rest, delimiter) == ScanLine(t, rest, delimiter)
  {
    assert Step(s, c, delimiter) == t;
    ScanLineCons(s, c, rest, delimiter);
  }

  /**
   While a comment is open, quote-free text is appended to the buffer as it
   is: delimiter characters are content and end no field.
   */
  lemma {:induction false} CommentedTextIsContent(s: Scan, text: String, delimiter: String)
    requires Bounded(s, delimiter) && s.comment
    requires Quote !in text && NulFree(text, delimiter)
    ensures ScanLine(s, text, delimiter) == s.(buffer := s.buffer + text)
    decreases |text|
  {
    if text != [] {
      CommentedTextIsContent(s.(buffer := s.buffer + [text[0]]), text[1..], delimiter);
      assert s.buffer + [text[0]] + text[1..] == s.buffer + text;
    }
  }

  /**
   Outside a comment, quote-free text none of whose characters is the next
   expected delimiter character is appended to the buffer as it is.
   */
  lemma {:induction false} PlainTextIsContent(s: Scan, text: String, delimiter: String)
    requires Bounded(s, delimiter) && !s.comment
    requires forall i :: 0 <= i < |text| ==> text[i] != Quote && text[i] != Expected(s, delimiter)
    requires NulFree(text, delimiter)
    ensures ScanLine(s, text, delimiter) == s.(buffer := s.buffer + text)
    decreases |text|
  {
    if text != [] {
      PlainTextIsContent(s.(buffer := s.buffer + [text[0]]), text[1..], delimiter);
      assert s.buffer + [text[0]] + text[1..] == s.buffer + text;
    }
  }

  /**
   Outside a comment and at the start of a match, the delimiter itself ends
   the field: what was buffered is pushed and the buffer is emptied.
   */
  lemma DelimiterEndsField(s: Scan, delimiter: String)
    requires |delimiter| > 0 && Quote !in delimiter
    requires !s.comment && s.delimCount == 0
    ensures ScanLine(s, delimiter, delimiter) == Scan([], false, 0, s.row + [s.buffer])
  {
    assert s.buffer[|s.buffer| - 0..] == [] == delimiter[..0];
    MatchDelimiterFrom(s, delimiter, 0);
    assert delimiter[0..] == delimiter;
    assert s.buffer[..|s.buffer| - 0] == s.buffer;
  }

  /**
   Outside a comment and at the start of a match, plain text followed by the
   delimiter is one field: the buffer plus the text is pushed.
   */
  lemma FieldThenDelimiter(s: Scan, text: String, delimiter: String)
    requires |delimiter| > 0 && Quote !in delimiter
    requires !s.comment && s.delimCount == 0 && Bounded(s, delimiter)
    requires forall i :: 0 <= i < |text| ==> text[i] != Quote && text[i] != delimiter[0]
    ensures ScanLine(s, text + delimiter, delimiter) == Scan([], false, 0, s.row + [s.buffer + text])
  {
    ScanLineAppend(s, text, delimiter, delimiter);
    PlainTextIsContent(s, text, delimiter);
    DelimiterEndsField(s.(buffer := s.buffer + text), delimiter);
  }

  /** Matching the rest of the delimiter from position `k` of it. */
  lemma {:induction false} MatchDelimiterFrom(s: Scan, delimiter: String, k: nat)
    requires k < |delimiter| && Quote !in delimiter
    requires !s.comment && s.delimCount == k
    requires |s.buffer| >= k && s.buffer[|s.buffer| - k..] == delimiter[..k]
    ensures ScanLine(s, delimiter[k..], delimiter) ==
      Scan([], false, 0, s.row + [s.buffer[..|s.buffer| - k]])
    decreases |delimiter| - k
  {
    var c := delimiter[k];
    assert c != Quote;
    var buffer := s.buffer + [c];
    MatchedSuffixGrows(s.buffer, delimiter, k);
    assert delimiter[k..] == [c] + delimiter[k + 1..];
    if k + 1 == |delimiter| {
      var t := Scan([], false, 0, s.row + [s.buffer[..|s.buffer| - k]]);
      MatchCompletes(s, c, [], delimiter, t);
      assert ScanLine(t, [], delimiter) == t;
    } else {
      var t := Scan(buffer, false, k + 1, s.row);
      MatchAdvances(s, c, delimiter[k + 1..], delimiter, t);
      MatchDelimiterFrom(t, delimiter, k + 1);
    }
  }

  /**
   When the buffer ends with the first `k` delimiter characters, appending
   the next one makes it end with the first `k + 1`, and what precedes the
   match is unchanged.
   */
  lemma MatchedSuffixGrows(buffer: String, delimiter: String, k: nat)
    requires k < |delimiter| && |buffer| >= k && buffer[|buffer| - k..] == delimiter[..k]
    ensures (buffer + [delimiter[k]])[|buffer| - k..] == delimiter[..k + 1]
    ensures (buffer + [delimiter[k]])[..|buffer| - k] == buffer[..|buffer| - k]
  {
    assert (buffer + [delimiter[k]])[|buffer| - k..] == buffer[|buffer| - k..] + [delimiter[k]];
    assert delimiter[..k + 1] == delimiter[..k] + [delimiter[k]];
  }

  // ---------------------------------------------------------------------------
  // Splitting at a one-character delimiter

  /** `line` cut at every occurrence of `sep`; empty pieces are kept. */
  function SplitOn(line: String, sep: char): (r: seq<String>)
    ensures |r| == Count(line, sep) + 1
    ensures forall k :: 0 <= k < |r| ==> sep !in r[k]
  {
    if line == [] then [[]]
    else
      var rest := SplitOn(line[1..], sep);
      if line[0] == sep then [[]] + rest
      else [[line[0]] + rest[0]] + rest[1..]
  }

  /** Cutting at `sep` and joining with `sep` gives the line back. */
  lemma {:induction false} JoinSplitOn(line: String, sep: char)
    ensures Join(SplitOn(line, sep), [sep]) == line
  {
    if line != [] {
      var rest := SplitOn(line[1..], sep);
      JoinSplitOn(line[1..], sep);
      assert line == [line[0]] + line[1..];
      if line[0] == sep {
        JoinEmptyFirst(rest, [sep]);
      } else {
        JoinPrefixFirst([line[0]], rest, [sep]);
      }
    }
  }

  /** The pieces of `line` at `sep`, the first one prefixed with `buffer`. */
  function Pieces(buffer: String, line: String, sep: char): (q: seq<String>)
    ensures |q| == Count(line, sep) + 1
  {
    var pieces := SplitOn(line, sep);
    [buffer + pieces[0]] + pieces[1..]
  }

  /** A leading separator closes the buffered piece. */
  lemma PiecesAtSep(buffer: String, row: seq<String>, line: String, sep: char)
    requires line != [] && line[0] == sep
    ensures var q := Pieces(buffer, line, sep);
            var p := Pieces([], line[1..], sep);
            q[|q| - 1] == p[|p| - 1] && row + q[..|q| - 1] == row + [buffer] + p[..|p| - 1]
  {
    var rest := SplitOn(line[1..], sep);
    assert SplitOn(line, sep) == [[]] + rest;
    assert [] + rest[0] == rest[0];
    assert Pieces([], line[1..], sep) == rest by {
      assert [rest[0]] + rest[1..] == rest;
    }
    assert Pieces(buffer, line, sep) == [buffer] + rest by {
      assert buffer + [] == buffer;
    }
  }

  /** Any other leading character joins the buffered piece. */
  lemma PiecesOther(buffer: String, line: String, sep: char)
    requires line != [] && line[0] != sep
    ensures Pieces(buffer, line, sep) == Pieces(buffer + [line[0]], line[1..], sep)
  {
    var rest := SplitOn(line[1..], sep);
    assert buffer + [line[0]] + rest[0] == buffer + ([line[0]] + rest[0]);
  }

  /**
   With a one-character delimiter and no quote, scanning a line pushes all
   but the last of its pieces (the first one prefixed with what was
   buffered) and leaves the last piece in the buffer.
   */
  lemma {:induction false} ScanLineSplits(s: Scan, line: String, delimiter: String)
    requires |delimiter| == 1 && Bounded(s, delimiter) && !s.comment
    requires Quote !in line
    ensures var q := Pieces(s.buffer, line, delimiter[0]);
            ScanLine(s, line, delimiter) == Scan(q[|q| - 1], false, 0, s.row + q[..|q| - 1])
    decreases |line|
  {
    var d := delimiter[0];
    if line != [] {
      var c := line[0];
      if c == d {
        var t := Scan([], false, 0, s.row + [s.buffer]);
        assert Step(s, c, delimiter) == t by {
          assert (s.buffer + [c])[..|s.buffer| + 1 - 1] == s.buffer;
        }
        ScanLineSplits(t, line[1..], delimiter);
        PiecesAtSep(s.buffer, s.row, line, d);
      } else {
        var t := s.(buffer := s.buffer + [c]);
        assert Step(s, c, delimiter) == t;
        ScanLineSplits(t, line[1..], delimiter);
        PiecesOther(s.buffer, line, d);
      }
    }
  }

  /**
   With a one-character delimiter, a line without quotes is one row: the line
   cut at every delimiter, empty fields kept, one more field than there are
   delimiters.
   */
  lemma NextRowSplitsLine(lines: seq<String>, pos: nat, delimiter: String)
    requires pos < |lines| && |delimiter| == 1
    requires Quote !in lines[pos]
    ensures NextRow(lines, pos, delimiter) == Parsed(SplitOn(lines[pos], delimiter[0]), pos + 1)
    ensures |NextRow(lines, pos, delimiter).row| == Count(lines[pos], delimiter[0]) + 1
  {
    var pieces := SplitOn(lines[pos], delimiter[0]);
    ScanLineSplits(Start, lines[pos], delimiter);
    var q := Pieces([], lines[pos], delimiter[0]);
    assert [] + pieces[0] == pieces[0];
    assert q == pieces;
    assert q[..|q| - 1] + [q[|q| - 1]] == q;
  }

  /**
   With the empty delimiter nothing is ever matched (the comparison is with
   the terminator), so a line without quotes is one row of one field: the
   line itself.
   */
  lemma EmptyDelimiterKeepsLine(lines: seq<String>, pos: nat)
    requires pos < |lines| && LinesNulFree(lines, pos, [])
    requires Quote !in lines[pos]
    ensures NextRow(lines, pos, []) == Parsed([lines[pos]], pos + 1)
  {
    assert NulFree(lines[pos], []);
    PlainTextIsContent(Start, lines[pos], []);
    assert Start.buffer + lines[pos] == lines[pos];
  }

  // ---------------------------------------------------------------------------
  // Rows spanning several lines

  /**
   A line that ends inside a comment does not end the row: parsing goes on
   exactly as if the next line had been glued to it with nothing between.
   */
  lemma JoinsOpenLine(lines: seq<String>, pos: nat, s: Scan, delimiter: String)
    requires pos + 1 < |lines| && Bounded(s, delimiter) && LinesNulFree(lines, pos, delimiter)
    requires ScanLine(s, lines[pos], delimiter).comment
    ensures var glued := lines[..pos] + [lines[pos] + lines[pos + 1]] + lines[pos + 2..];
            var r := ParseFrom(glued, pos, s, delimiter);
            ParseFrom(lines, pos, s, delimiter) == Parsed(r.row, r.next + 1)
  {
    var glued := lines[..pos] + [lines[pos] + lines[pos + 1]] + lines[pos + 2..];
    var t := ScanLine(s, lines[pos], delimiter);
    ScanLineAppend(s, lines[pos], lines[pos + 1], delimiter);
    assert glued[pos] == lines[pos] + lines[pos + 1];
    var u := ScanLine(t, lines[pos + 1], delimiter);
    if u.comment {
      ShiftedParse(lines, glued, pos + 2, u, delimiter);
    }
  }

  /** Parsing a source and the same source with one line less in front agree, shifted by one. */
  lemma {:induction false} ShiftedParse(lines: seq<String>, glued: seq<String>, pos: nat, s: Scan, delimiter: String)
    requires 1 <= pos <= |lines| && |glued| == |lines| - 1 && Bounded(s, delimiter)
    requires LinesNulFree(lines, pos, delimiter) && LinesNulFree(glued, pos - 1, delimiter)
    requires forall k :: pos <= k < |lines| ==> glued[k - 1] == lines[k]
    ensures var r := ParseFrom(glued, pos - 1, s, delimiter);
            ParseFrom(lines, pos, s, delimiter) == Parsed(r.row, r.next + 1)
    decreases |lines| - pos
  {
    if pos < |lines| {
      var t := ScanLine(s, lines[pos], delimiter);
      if t.comment {
        ShiftedParse(lines, glued, pos + 1, t, delimiter);
      }
    }
  }

  /** The state after scanning every line from `pos` on, one after the other. */
  function ScanFrom(lines: seq<String>, pos: nat, s: Scan, delimiter: String): (t: Scan)
    requires pos <= |lines| && Bounded(s, delimiter) && LinesNulFree(lines, pos, delimiter)
    ensures Bounded(t, delimiter)
    ensures |s.row| <= |t.row| && t.row[..|s.row|] == s.row
    decreases |lines| - pos
  {
    if pos == |lines| then s
    else ScanFrom(lines, pos + 1, ScanLine(s, lines[pos], delimiter), delimiter)
  }

  /** Every line from `pos` on ends with a comment open. */
  predicate StaysOpen(lines: seq<String>, pos: nat, s: Scan, delimiter: String)
    requires pos <= |lines| && Bounded(s, delimiter) && LinesNulFree(lines, pos, delimiter)
    decreases |lines| - pos
  {
    pos == |lines| ||
    (var t := ScanLine(s, lines[pos], delimiter);
     t.comment && StaysOpen(lines, pos + 1, t, delimiter))
  }

  /**
   When the source runs out with a comment still open, the open field is not
   pushed: every line is consumed and the row holds only the fields
   completed on the way, while the buffered text is dropped.
   */
  lemma {:induction false} OpenFieldDroppedAtEnd(lines: seq<String>, pos: nat, s: Scan, delimiter: String)
    requires pos <= |lines| && Bounded(s, delimiter) && LinesNulFree(lines, pos, delimiter)
    requires StaysOpen(lines, pos, s, delimiter)
    ensures ParseFrom(lines, pos, s, delimiter) == Parsed(ScanFrom(lines, pos, s, delimiter).row, |lines|)
    decreases |lines| - pos
  {
    if pos < |lines| {
      var t := ScanLine(s, lines[pos], delimiter);
      OpenFieldDroppedAtEnd(lines, pos + 1, t, delimiter);
    }
  }

  /**
   The case of an open comment and no quote left: nothing more is pushed, so
   the row is the one held when the comment was opened.
   */
  lemma {:induction false} QuoteFreeTailDropped(lines: seq<String>, pos: nat, s: Scan, delimiter: String)
    requires pos <= |lines| && Bounded(s, delimiter) && LinesNulFree(lines, pos, delimiter)
    requires forall k :: pos <= k < |lines| ==> Quote !in lines[k]
    requires s.comment
    ensures ParseFrom(lines, pos, s, delimiter) == Parsed(s.row, |lines|)
    decreases |lines| - pos
  {
    if pos < |lines| {
      CommentedTextIsContent(s, lines[pos], delimiter);
      QuoteFreeTailDropped(lines, pos + 1, s.(buffer := s.buffer + lines[pos]), delimiter);
    }
  }

  /** No field that `next` pushes ever holds a quote: every quote only toggles the comment. */
  lemma NextRowQuoteFree(lines: seq<String>, pos: nat, delimiter: String)
    requires pos <= |lines| && LinesNulFree(lines, pos, delimiter)
    ensures forall k :: 0 <= k < |NextRow(lines, pos, delimiter).row| ==>
      Quote !in NextRow(lines, pos, delimiter).row[k]
  {
    if pos < |lines| {
      ParseFromQuoteFree(lines, pos, Start, delimiter);
    }
  }

  lemma {:induction false} ParseFromQuoteFree(lines: seq<String>, pos: nat, s: Scan, delimiter: String)
    requires pos <= |lines| && Bounded(s, delimiter) && QuoteFree(s) && LinesNulFree(lines, pos, delimiter)
    ensures forall k :: 0 <= k < |ParseFrom(lines, pos, s, delimiter).row| ==>
      Quote !in ParseFrom(lines, pos, s, delimiter).row[k]
    decreases |lines| - pos
  {
    if pos < |lines| {
      var t := ScanLine(s, lines[pos], delimiter);
      if t.comment {
        ParseFromQuoteFree(lines, pos + 1, t, delimiter);
      }
    }
  }

  // ---------------------------------------------------------------------------
  // The source's class

  /**
   `CSVParser::Iterator`: a cursor over the source lines and the last row
   parsed. The end iterator is the one built with `ended` set; `next` never
   sets it.
   */
  class Iterator {
    /** The source range; `source_end` is `|lines|`. */
    const lines: seq<String>
    /** `source_start`, as an index into `lines`. */
    var position: nat
    var row: Row
    const ended: bool
    const delimiter: String

    ghost predicate Valid()
      reads this
    {
      position <= |lines|
    }

    /** The normal constructor: nothing is parsed yet, so the row is empty. */
    constructor (lines: seq<String>, delimiter: String)
      ensures Valid() && this.lines == lines && this.delimiter == delimiter
      ensures position == 0 && row == [] && !ended
    {
      this.lines := lines;
      this.delimiter := delimiter;
      position := 0;
      row := [];
      ended := false;
    }

    /** The end constructor: an empty source and an empty delimiter. */
    constructor End(ended: bool)
      ensures Valid() && lines == [] && delimiter == [] && position == 0 && row == []
      ensures this.ended == ended
    {
      lines := [];
      delimiter := [];
      position := 0;
      row := [];
      this.ended := ended;
    }

    /** The copy made by postfix `++`. */
    constructor Copy(other: Iterator)
      requires other.Valid()
      ensures Valid() && lines == other.lines && delimiter == other.delimiter
      ensures position == other.position && row == other.row && ended == other.ended
    {
      lines := other.lines;
      delimiter := other.delimiter;
      position := other.position;
      row := other.row;
      ended := other.ended;
    }

    /** `next`: parses one row from the cursor on, consuming one or more lines. */
    method Next() returns (r: Row)
      requires Valid() && LinesNulFree(lines, position, delimiter)
      modifies this`position, this`row
      ensures Valid()
      ensures Parsed(row, position) == NextRow(lines, old(position), delimiter)
      ensures r == row
    {
      ghost var goal := NextRow(lines, position, delimiter);
      var buffer: String := [];
      var comment := false;
      var delimCount: nat := 0;
      row := [];
      while position != |lines|
        invariant position <= |lines|
        invariant LinesNulFree(lines, position, delimiter)
        invariant Bounded(Scan(buffer, comment, delimCount, row), delimiter)
        invariant position < |lines| ==>
          ParseFrom(lines, position, Scan(buffer, comment, delimCount, row), delimiter) == goal
        invariant position == |lines| ==> Parsed(row, position) == goal
        decreases |lines| - position
      {
        var line := lines[position];
        position := position + 1;
        buffer, comment, delimCount := ScanInto(line, buffer, comment, delimCount);
        if !comment {
          row := row + [buffer];
          break;
        }
      }
      r := row;
    }

    /** The loop over the characters of one line. */
    method ScanInto(line: String, buffer0: String, comment0: bool, delimCount0: nat)
      returns (buffer: String, comment: bool, delimCount: nat)
      requires Bounded(Scan(buffer0, comment0, delimCount0, row), delimiter)
      requires NulFree(line, delimiter)
      modifies this`row
      ensures Scan(buffer, comment, delimCount, row)
              == ScanLine(Scan(buffer0, comment0, delimCount0, old(row)), line, delimiter)
    {
      ghost var before := Scan(buffer0, comment0, delimCount0, row);
      buffer, comment, delimCount := buffer0, comment0, delimCount0;
      var i := 0;
      while i < |line|
        invariant 0 <= i <= |line|
        invariant Bounded(Scan(buffer, comment, delimCount, row), delimiter)
        invariant ScanLine(Scan(buffer, comment, delimCount, row), line[i..], delimiter)
                  == ScanLine(before, line, delimiter)
      {
        assert line[i..][0] == line[i] && line[i..][1..] == line[i + 1..];
        assert |delimiter| > 0 || line[i] != Nul;
        buffer, comment, delimCount := StepInto(line[i], buffer, comment, delimCount);
        i := i + 1;
      }
      assert line[i..] == [];
    }

    /**
     The body of that loop: a quote toggles the comment state; outside a
     comment, a character that continues the delimiter is buffered and a
     completed delimiter pushes the buffer without it; any other character
     is buffered.
     */
    method StepInto(c: char, buffer0: String, comment0: bool, delimCount0: nat)
      returns (buffer: String, comment: bool, delimCount: nat)
      requires Bounded(Scan(buffer0, comment0, delimCount0, row), delimiter)
      requires |delimiter| > 0 || comment0 || c != Nul
      modifies this`row
      ensures Scan(buffer, comment, delimCount, row)
              == Step(Scan(buffer0, comment0, delimCount0, old(row)), c, delimiter)
    {
      buffer, comment, delimCount := buffer0, comment0, delimCount0;
      // an empty delimiter is read as its terminating NUL
      var expected := if |delimiter| == 0 then Nul else delimiter[delimCount];
      if c == Quote {
        comment := !comment;
      } else if !comment && c == expected {
        buffer := buffer + [c];
        delimCount := delimCount + 1;
        if delimCount == |delimiter| {
          var out: String := [];
          var k := 0;
          while k != |buffer| - |delimiter|
            invariant 0 <= k <= |buffer| - |delimiter|
            invariant out == buffer[..k]
          {
            out := out + [buffer[k]];
            k := k + 1;
          }
          row := row + [out];
          buffer := [];
          delimCount := 0;
        }
      } else {
        buffer := buffer + [c];
      }
    }

    /** Prefix `++`: parses the next row. */
    method Increment()
      requires Valid() && LinesNulFree(lines, position, delimiter)
      modifies this`position, this`row
      ensures Valid()
      ensures Parsed(row, position) == NextRow(lines, old(position), delimiter)
    {
      var _ := Next();
    }

    /** Postfix `++`: returns a copy holding the row before the advance, then parses the next row. */
    method PostIncrement() returns (copy: Iterator)
      requires Valid() && LinesNulFree(lines, position, delimiter)
      modifies this`position, this`row
      ensures fresh(copy) && copy.Valid()
      ensures copy.row == old(row) && copy.position == old(position)
      ensures copy.lines == lines && copy.delimiter == delimiter && copy.ended == ended
      ensures Valid()
      ensures Parsed(row, position) == NextRow(lines, old(position), delimiter)
    {
      copy := new Iterator.Copy(this);
      var _ := Next();
    }

    /** `*it`: the current row. */
    method Deref() returns (r: Row)
      ensures r == row
    {
      r := row;
    }

    /** `==`: compares only the `ended` flags. */
    method Equals(other: Iterator) returns (b: bool)
      ensures b <==> ended == other.ended
    {
      b := ended == other.ended;
    }

    /** `!=`: compares only the `ended` flags. */
    method NotEquals(other: Iterator) returns (b: bool)
      ensures b <==> ended != other.ended
    {
      b := ended != other.ended;
    }
  }
}

=== FILE: parser_tests.dfy ===
/**
 Concrete runs of the parser: a multi-character delimiter whose characters
 are scattered through a field, and the source's own parser test (three
 postfix increments over three lines, two of which end inside a quote).
 The concrete cases are instances of general shapes proved first.
 */
module ParserTests {
  import opened Text
  import opened Parsing

  /** Text that is neither a quote nor the first delimiter character anywhere. */
  predicate Plain(text: String, d: String)
    requires |d| > 0
  {
    forall i :: 0 <= i < |text| ==> text[i] != Quote && text[i] != d[0]
  }

  /** A quote only toggles the comment state. */
  lemma QuoteToggles(s: Scan, rest: String, d: String)
    requires Bounded(s, d) && NulFree(rest, d)
    ensures ScanLine(s, [Quote] + rest, d) == ScanLine(s.(comment := !s.comment), rest, d)
  {
    ScanLineCons(s, Quote, rest, d);
  }

  /**
   A line `x<d>y"` opens a quote, so the next line `t"` is glued to the
   field `y`: the row is `x`, `y + t`, two lines consumed.
   */
  lemma OpenQuoteJoinsLines(x: String, y: String, t: String, l2: String, d: String)
    requires |d| > 0 && Quote !in d && Plain(x, d) && Plain(y, d) && Quote !in t
    ensures NextRow([x + d + (y + [Quote]), t + [Quote], l2], 0, d) == Parsed([x, y + t], 2)
  {
    var a := Scan([], false, 0, [x]);
    var b := Scan(y, true, 0, [x]);
    var c := Scan(y + t, false, 0, [x]);
    assert ScanLine(Start, x + d + (y + [Quote]), d) == b by {
      assert ScanLine(Start, x + d, d) == a by {
        FieldThenDelimiter(Start, x, d);
        assert [] + x == x && [] + [x] == [x];
      }
      assert ScanLine(a, y, d) == a.(buffer := y) by {
        PlainTextIsContent(a, y, d);
        assert [] + y == y;
      }
      ScanLineAppend(Start, x + d, y + [Quote], d);
      ScanLineAppend(a, y, [Quote], d);
      QuoteToggles(a.(buffer := y), [], d);
    }
    assert ScanLine(b, t + [Quote], d) == c by {
      ScanLineAppend(b, t, [Quote], d);
      CommentedTextIsContent(b, t, d);
      QuoteToggles(b.(buffer := y + t), [], d);
    }
    var lines := [x + d + (y + [Quote]), t + [Quote], l2];
    assert ParseFrom(lines, 1, b, d) == Parsed([x, y + t], 2);
  }

  /**
   A line `x<d>y<d>z"""t"w`: two fields end at the delimiters; the three
   quotes leave a comment open, so `t` (delimiters included) is content; the
   fourth quote closes it. The row is `x`, `y`, `z + t + w`.
   */
  lemma QuotedRunInField(x: String, y: String, z: String, t: String, w: String, d: String)
    requires |d| > 0 && Quote !in d && Plain(x, d) && Plain(y, d) && Plain(z, d) && Plain(w, d)
    requires Quote !in t
    ensures var line := x + d + (y + d + (z + ([Quote] + ([Quote] + ([Quote] + (t + ([Quote] + w)))))));
            ScanLine(Start, line, d) == Scan(z + t + w, false, 0, [x, y])
  {
    var tail := z + ([Quote] + ([Quote] + ([Quote] + (t + ([Quote] + w)))));
    var a := Scan([], false, 0, [x]);
    var b := Scan([], false, 0, [x, y]);
    assert ScanLine(Start, x + d, d) == a by {
      FieldThenDelimiter(Start, x, d);
      assert [] + x == x && [] + [x] == [x];
    }
    assert ScanLine(a, y + d, d) == b by {
      FieldThenDelimiter(a, y, d);
      assert [] + y == y;
    }
    ScanLineAppend(Start, x + d, y + d + tail, d);
    ScanLineAppend(a, y + d, tail, d);
    QuotedRunTail(b, z, t, w, d);
  }

  /** The part of `QuotedRunInField` after the second delimiter. */
  lemma QuotedRunTail(b: Scan, z: String, t: String, w: String, d: String)
    requires |d| > 0 && Quote !in d && Plain(z, d) && Plain(w, d) && Quote !in t
    requires b.buffer == [] && !b.comment && b.delimCount == 0
    ensures ScanLine(b, z + ([Quote] + ([Quote] + ([Quote] + (t + ([Quote] + w))))), d)
            == Scan(z + t + w, false, 0, b.row)
  {
    var c := Scan(z, true, 0, b.row);
    var e := Scan(z + t, false, 0, b.row);
    var r := t + ([Quote] + w);
    assert ScanLine(b, z + ([Quote] + ([Quote] + ([Quote] + r))), d) == ScanLine(c, r, d) by {
      ScanLineAppend(b, z, [Quote] + ([Quote] + ([Quote] + r)), d);
      PlainTextIsContent(b, z, d);
      assert [] + z == z;
      QuoteToggles(b.(buffer := z), [Quote] + ([Quote] + r), d);
      QuoteToggles(b.(buffer := z, comment := true), [Quote] + r, d);
      QuoteToggles(b.(buffer := z), r, d);
    }
    assert ScanLine(c, r, d) == ScanLine(e, w, d) by {
      ScanLineAppend(c, t, [Quote] + w, d);
      CommentedTextIsContent(c, t, d);
      QuoteToggles(c.(buffer := z + t), w, d);
    }
    PlainTextIsContent(e, w, d);
  }

  /**
   A mismatch does not reset the delimiter match: in `a<b|>c` with `<|>`
   the `<`, `|` and `>` complete the delimiter although `b` stands between
   them, so the field `a<` (the buffer `a<b|>` minus three characters) is
   pushed.
   */
  lemma ScatteredDelimiter(line: String, d: String)
    requires line == "a<b|>c" && d == "<|>"
    ensures NextRow([line], 0, d) == Parsed(["a<", "c"], 1)
  {
    ScatteredScan(line, d);
    assert ["a<"] + ["c"] == ["a<", "c"];
  }

  /** The character loop over `a<b|>c` with `<|>`. */
  lemma ScatteredScan(line: String, d: String)
    requires line == "a<b|>c" && d == "<|>"
    ensures ScanLine(Start, line, d) == Scan("c", false, 0, ["a<"])
  {
    assert line == ['a', d[0], 'b', d[1], d[2], 'c'];
    ScatteredChars('a', 'b', 'c', d);
  }

  /**
   The scattered case for any three-character delimiter: `x`, the first
   delimiter character, a mismatching `y`, the second and third delimiter
   characters, then `z`. The mismatch keeps the match position, so the last
   two characters complete the delimiter and `x` and the first delimiter
   character are pushed as a field.
   */
  lemma ScatteredChars(x: char, y: char, z: char, d: String)
    requires |d| == 3 && Quote !in d
    requires x != Quote && x != d[0] && y != Quote && y != d[1] && z != Quote && z != d[0]
    ensures ScanLine(Start, [x, d[0], y, d[1], d[2], z], d) == Scan([z], false, 0, [[x, d[0]]])
  {
    var s4 := Scan([x, d[0], y, d[1]], false, 2, []);
    var r4 := [d[2]] + [z];
    assert [x] + ([d[0]] + ([y] + ([d[1]] + r4))) == [x, d[0], y, d[1], d[2], z];
    ScatteredHead(x, y, r4, d);
    ScatteredTail(s4, z, d);
  }

  /** The first four characters: the mismatch after the first delimiter character keeps the match position. */
  lemma ScatteredHead(x: char, y: char, rest: String, d: String)
    requires |d| == 3 && Quote !in d
    requires x != Quote && x != d[0] && y != Quote && y != d[1]
    ensures ScanLine(Start, [x] + ([d[0]] + ([y] + ([d[1]] + rest))), d) ==
      ScanLine(Scan([x, d[0], y, d[1]], false, 2, []), rest, d)
  {
    var s1 := Scan([x], false, 0, []);
    var s2 := Scan([x, d[0]], false, 1, []);
    var s3 := Scan([x, d[0], y], false, 1, []);
    var s4 := Scan([x, d[0], y, d[1]], false, 2, []);
    assert Start.buffer + [x] == s1.buffer;
    MismatchIsStored(Start, x, [d[0]] + ([y] + ([d[1]] + rest)), d, s1);
    assert s1.buffer + [d[0]] == s2.buffer;
    MatchAdvances(s1, d[0], [y] + ([d[1]] + rest), d, s2);
    assert s2.buffer + [y] == s3.buffer;
    MismatchIsStored(s2, y, [d[1]] + rest, d, s3);
    assert s3.buffer + [d[1]] == s4.buffer;
    MatchAdvances(s3, d[1], rest, d, s4);
  }

  /** The last delimiter character completes the match; the buffer minus three characters is pushed. */
  lemma ScatteredTail(s4: Scan, z: char, d: String)
    requires |d| == 3 && Quote !in d && |s4.buffer| == 4
    requires s4 == Scan([s4.buffer[0], d[0], s4.buffer[2], d[1]], false, 2, [])
    requires z != Quote && z != d[0]
    ensures ScanLine(s4, [d[2]] + [z], d) == Scan([z], false, 0, [[s4.buffer[0], d[0]]])
  {
    var s5 := Scan([], false, 0, [[s4.buffer[0], d[0]]]);
    var s6 := Scan([z], false, 0, [[s4.buffer[0], d[0]]]);
    assert (s4.buffer + [d[2]])[..|s4.buffer| + 1 - |d|] == [s4.buffer[0], d[0]];
    MatchCompletes(s4, d[2], [z], d, s5);
    assert s5.buffer + [z] == s6.buffer && [z] + [] == [z];
    MismatchIsStored(s5, z, [], d, s6);
    assert ScanLine(s6, [], d) == s6;
  }

  /** An unfinished delimiter is content: `a<|b` with `<|>` is one field. */
  lemma UnfinishedDelimiter(line: String, d: String)
    requires line == "a<|b" && d == "<|>"
    ensures NextRow([line], 0, d) == Parsed(["a<|b"], 1)
  {
    assert line == ['a', d[0], d[1], 'b'];
    UnfinishedChars('a', 'b', d);
    var t := ScanLine(Start, line, d);
    assert t.row + [t.buffer] == ["a<|b"];
  }

  /**
   For any three-character delimiter: `x`, the first two delimiter
   characters and a mismatching `y` stay in the buffer, with the match
   position still at the third delimiter character.
   */
  lemma UnfinishedChars(x: char, y: char, d: String)
    requires |d| == 3 && Quote !in d
    requires x != Quote && x != d[0] && y != Quote && y != d[2]
    ensures ScanLine(Start, [x, d[0], d[1], y], d) == Scan([x, d[0], d[1], y], false, 2, [])
  {
    var r2 := [d[1]] + [y];
    var r1 := [d[0]] + r2;
    assert [x] + r1 == [x, d[0], d[1], y];
    var s1 := Scan([x], false, 0, []);
    var s2 := Scan([x, d[0]], false, 1, []);
    var s3 := Scan([x, d[0], d[1]], false, 2, []);
    var s4 := Scan([x, d[0], d[1], y], false, 2, []);
    assert Start.buffer + [x] == s1.buffer;
    MismatchIsStored(Start, x, r1, d, s1);
    assert s1.buffer + [d[0]] == s2.buffer;
    MatchAdvances(s1, d[0], r2, d, s2);
    assert s2.buffer + [d[1]] == s3.buffer;
    MatchAdvances(s2, d[1], [y], d, s3);
    assert s3.buffer + [y] == s4.buffer && [y] + [] == [y];
    MismatchIsStored(s3, y, [], d, s4);
    assert ScanLine(s4, [], d) == s4;
  }

  /**
   A line `x"y` opens a quote and a line `z""w` closes and reopens it; the
   source then ends inside the quote, so both lines are consumed and no
   field is pushed: the text `x + y + z + w` is dropped.
   */
  lemma OpenQuoteAtEndDropsField(x: String, y: String, z: String, w: String, d: String)
    requires |d| > 0 && Quote !in d && Plain(x, d)
    requires Quote !in y && Quote !in z && Quote !in w
    ensures NextRow([x + [Quote] + y, z + [Quote, Quote] + w], 0, d) == Parsed([], 2)
  {
    var lines := [x + [Quote] + y, z + [Quote, Quote] + w];
    var b := Scan(x + y, true, 0, []);
    var c := Scan(x + y + z + w, true, 0, []);
    OpensQuote(lines[0], x, y, d, b);
    ReopensQuote(b, lines[1], z, w, d, c);
    assert ScanFrom(lines, 1, b, d) == c by {
      assert ScanFrom(lines, 2, c, d) == c;
    }
    assert StaysOpen(lines, 0, Start, d) by {
      assert StaysOpen(lines, 2, c, d);
    }
    OpenFieldDroppedAtEnd(lines, 0, Start, d);
  }

  /** Proof helper: the line `x"y` leaves `x + y` buffered inside a quote. */
  lemma OpensQuote(line: String, x: String, y: String, d: String, t: Scan)
    requires |d| > 0 && Quote !in d && Plain(x, d) && Quote !in y
    requires line == x + [Quote] + y && t == Scan(x + y, true, 0, [])
    ensures ScanLine(Start, line, d) == t
  {
    var sx := Start.(buffer := x);
    var a := sx.(comment := true);
    var tail := [Quote] + y;
    assert line == x + tail;
    ScanLineAppend(Start, x, tail, d);
    assert ScanLine(Start, x, d) == sx by {
      PlainTextIsContent(Start, x, d);
      assert [] + x == x;
    }
    QuoteToggles(sx, y, d);
    CommentedTextIsContent(a, y, d);
  }

  /** Proof helper: inside a quote, the line `z""w` is buffered and the quote stays open. */
  lemma ReopensQuote(b: Scan, line: String, z: String, w: String, d: String, t: Scan)
    requires Bounded(b, d) && b.comment && |d| > 0 && Quote !in z && Quote !in w
    requires line == z + [Quote, Quote] + w && t == b.(buffer := b.buffer + z + w)
    ensures ScanLine(b, line, d) == t
  {
    var bz := b.(buffer := b.buffer + z);
    var tail := [Quote, Quote] + w;
    assert line == z + tail;
    ScanLineAppend(b, z, tail, d);
    CommentedTextIsContent(b, z, d);
    QuotePairSkipped(bz, tail, w, d);
    CommentedTextIsContent(bz, w, d);
  }

  /** Proof helper: two quotes in a row leave the state as it was. */
  lemma QuotePairSkipped(s: Scan, tail: String, w: String, d: String)
    requires Bounded(s, d) && |d| > 0 && tail == [Quote, Quote] + w
    ensures ScanLine(s, tail, d) == ScanLine(s, w, d)
  {
    assert tail == [Quote] + ([Quote] + w);
    QuoteToggles(s, [Quote] + w, d);
    QuoteToggles(s.(comment := !s.comment), w, d);
    assert s.(comment := !s.comment).(comment := s.comment) == s;
  }

  /** The concrete lines `a"b` and `c""d`: the source ends inside a quote. */
  lemma UnclosedQuoteDropsField(l0: String, l1: String, d: String)
    requires l0 == "a\"b" && l1 == "c\"\"d" && d == ","
    ensures NextRow([l0, l1], 0, d) == Parsed([], 2)
  {
    assert l0 == "a" + [Quote] + "b" && l1 == "c" + [Quote, Quote] + "d";
    OpenQuoteAtEndDropsField("a", "b", "c", "d", d);
  }

  /** The first row of the source's test: `first<|>line"` then `second<|>line"`. */
  lemma FirstRowOfTest(l0: String, l1: String, l2: String, d: String)
    requires l0 == "first<|>line\"" && l1 == "second<|>line\"" && d == "<|>"
    ensures NextRow([l0, l1, l2], 0, d) == Parsed(["first", "linesecond<|>line"], 2)
  {
    FirstLinesShape(l0, l1, d);
    OpenQuoteJoinsLines("first", "line", "second<|>line", l2, d);
  }

  /**
   Proof helper: the first two lines of the source's test, cut into the
   pieces `OpenQuoteJoinsLines` expects. Kept apart so that the literals are
   split once, in a small context.
   */
  lemma FirstLinesShape(l0: String, l1: String, d: String)
    requires l0 == "first<|>line\"" && l1 == "second<|>line\"" && d == "<|>"
    ensures l0 == "first" + d + ("line" + [Quote]) && l1 == "second<|>line" + [Quote]
    ensures Plain("first", d) && Plain("line", d)
    ensures "line" + "second<|>line" == "linesecond<|>line"
  {
  }

  /** The second row of the source's test: `third<|>line<|>some"""<|>"text`. */
  lemma SecondRowOfTest(l0: String, l1: String, l2: String, d: String)
    requires l2 == "third<|>line<|>some\"\"\"<|>\"text" && d == "<|>"
    ensures NextRow([l0, l1, l2], 2, d) == Parsed(["third", "line", "some<|>text"], 3)
  {
    SecondLineShape(l2, d);
    SecondLinePieces(d);
    QuotedRunInField("third", "line", "some", "<|>", "text", d);
    assert ScanLine(Start, l2, d) == Scan("some<|>text", false, 0, ["third", "line"]);
  }

  /** Proof helper: the third line of the source's test, cut into the pieces `QuotedRunInField` expects. */
  lemma SecondLineShape(l2: String, d: String)
    requires l2 == "third<|>line<|>some\"\"\"<|>\"text" && d == "<|>"
    ensures l2 == "third" + d + ("line" + d + ("some" + ([Quote] + ([Quote] + ([Quote] + ("<|>" + ([Quote] + "text")))))))
  {
    var tail := "some\"\"\"<|>\"text";
    assert l2 == "third" + d + ("line" + d + tail);
    QuotedTailShape(tail);
  }

  /** Proof helper: the plain pieces of that line hold neither the quote nor `<`, and the last field reads `some<|>text`. */
  lemma SecondLinePieces(d: String)
    requires d == "<|>"
    ensures Plain("third", d) && Plain("line", d) && Plain("some", d) && Plain("text", d)
    ensures "some" + "<|>" + "text" == "some<|>text"
  {
  }

  /** Proof helper: the last field of that line: plain text, three quotes, the delimiter, a quote and plain text. */
  lemma QuotedTailShape(tail: String)
    requires tail == "some\"\"\"<|>\"text"
    ensures tail == "some" + ([Quote] + ([Quote] + ([Quote] + ("<|>" + ([Quote] + "text")))))
  {
  }

  /**
   `test_parse_1`: three postfix increments from a fresh iterator; each
   dereferences the copy taken before the advance, so the first row is the
   empty initial row.
   */
  method TestParse() returns (out: seq<Row>)
    ensures out == [[], ["first", "linesecond<|>line"], ["third", "line", "some<|>text"]]
  {
    var input := ["first<|>line\"", "second<|>line\"", "third<|>line<|>some\"\"\"<|>\"text"];
    var row1: Row := ["first", "linesecond<|>line"];
    var row2: Row := ["third", "line", "some<|>text"];
    FirstRowOfTest(input[0], input[1], input[2], "<|>");
    SecondRowOfTest(input[0], input[1], input[2], "<|>");
    var iter := new Iterator(input, "<|>");
    var copy := iter.PostIncrement();
    var first := copy.Deref();
    assert iter.row == row1 && iter.position == 2;
    copy := iter.PostIncrement();
    var second := copy.Deref();
    assert iter.position == 3;
    copy := iter.PostIncrement();
    var third := copy.Deref();
    out := [first, second, third];
  }
}

=== FILE: round_trip.dfy ===
/**
 Encoding a row and parsing the line back. The parser has the quote `"`
 built in, so the encoder is taken with that quote. A non-empty row comes back
 unchanged when no field holds a quote and every field that the encoder
 leaves unenclosed avoids the first character of the delimiter; with a
 one-character delimiter that is every non-empty quote-free row. Two concrete rows
 show what breaks outside those conditions.
 */
module RoundTrip {
  import opened Text
  import opened Encoding
  import opened Parsing

  /** A field the parser reads back as it is, once encoded with the quote `"`. */
  predicate Recoverable(field: String, delimiter: String)
    requires |delimiter| > 0
  {
    Quote !in field &&
    (NeedsEnclosure(field, delimiter, Quote) ||
     forall i :: 0 <= i < |field| ==> field[i] != delimiter[0])
  }

  /** At a field start, one encoded recoverable field becomes the buffer. */
  lemma ScanEncodedField(s: Scan, field: String, delimiter: String)
    requires |delimiter| > 0 && Quote !in delimiter
    requires s.buffer == [] && !s.comment && s.delimCount == 0
    requires Recoverable(field, delimiter)
    ensures ScanLine(s, EncodedField(field, delimiter, Quote), delimiter) == s.(buffer := field)
  {
    EscapedQuoteFree(field, Quote);
    if NeedsEnclosure(field, delimiter, Quote) {
      var open := s.(comment := true);
      assert ScanLine(s, [Quote] + field, delimiter) == open.(buffer := field) by {
        assert ([Quote] + field)[0] == Quote && ([Quote] + field)[1..] == field;
        CommentedTextIsContent(open, field, delimiter);
        assert [] + field == field;
      }
      ScanLineAppend(s, [Quote] + field, [Quote], delimiter);
      assert ScanLine(open.(buffer := field), [Quote], delimiter) == s.(buffer := field) by {
        assert [Quote][1..] == [];
      }
    } else {
      PlainTextIsContent(s, field, delimiter);
      assert [] + field == field;
    }
  }

  /** At a field start, an encoded recoverable field and the delimiter push the field. */
  lemma ScanEncodedFieldThenDelimiter(s: Scan, field: String, delimiter: String)
    requires |delimiter| > 0 && Quote !in delimiter
    requires s.buffer == [] && !s.comment && s.delimCount == 0
    requires Recoverable(field, delimiter)
    ensures ScanLine(s, EncodedField(field, delimiter, Quote) + delimiter, delimiter)
            == Scan([], false, 0, s.row + [field])
  {
    ScanEncodedField(s, field, delimiter);
    ScanLineAppend(s, EncodedField(field, delimiter, Quote), delimiter, delimiter);
    DelimiterEndsField(s.(buffer := field), delimiter);
  }

  /**
   At a field start, an encoded row of recoverable fields pushes all but the
   last field and leaves the last one in the buffer.
   */
  lemma {:induction false} ScanEncodedRow(s: Scan, row: Row, delimiter: String)
    requires |delimiter| > 0 && Quote !in delimiter && row != []
    requires s.buffer == [] && !s.comment && s.delimCount == 0
    requires forall k :: 0 <= k < |row| ==> Recoverable(row[k], delimiter)
    ensures ScanLine(s, EncodedRow(row, delimiter, Quote), delimiter)
            == Scan(row[|row| - 1], false, 0, s.row + row[..|row| - 1])
    decreases |row|
  {
    var field := row[0];
    if |row| == 1 {
      ScanEncodedField(s, field, delimiter);
      assert EncodedRow(row, delimiter, Quote) == EncodedField(field, delimiter, Quote);
      assert row[..0] == [] && s.row + [] == s.row;
    } else {
      var rest := row[1..];
      assert row == [field] + rest;
      assert rest[|rest| - 1] == row[|row| - 1];
      assert s.row + [field] + rest[..|rest| - 1] == s.row + row[..|row| - 1] by {
        assert [field] + rest[..|rest| - 1] == row[..|row| - 1];
      }
      EncodedRowCons(field, rest, delimiter, Quote);
      var encoded := EncodedField(field, delimiter, Quote);
      var t := Scan([], false, 0, s.row + [field]);
      ScanEncodedFieldThenDelimiter(s, field, delimiter);
      ScanLineAppend(s, encoded + delimiter, EncodedRow(rest, delimiter, Quote), delimiter);
      ScanEncodedRow(t, rest, delimiter);
    }
  }

  /**
   The round trip: parsing the encoded line of a non-empty row of
   recoverable fields gives the row back and consumes that one line.
   */
  lemma ParseEncodedRow(row: Row, delimiter: String, rest: seq<String>)
    requires |delimiter| > 0 && Quote !in delimiter && row != []
    requires forall k :: 0 <= k < |row| ==> Recoverable(row[k], delimiter)
    ensures NextRow([EncodedRow(row, delimiter, Quote)] + rest, 0, delimiter) == Parsed(row, 1)
  {
    var line := EncodedRow(row, delimiter, Quote);
    var lines := [line] + rest;
    var init, last := row[..|row| - 1], row[|row| - 1];
    var t := ScanLine(Start, line, delimiter);
    assert t == Scan(last, false, 0, init) by {
      ScanEncodedRow(Start, row, delimiter);
      assert Start.row + init == init;
    }
    assert lines[0] == line;
    assert ParseFrom(lines, 0, Start, delimiter) == Parsed(init + [last], 1);
    assert init + [last] == row;
  }

  /** With a one-character delimiter, every quote-free field is recoverable. */
  lemma SingleCharacterRecoverable(field: String, delimiter: String)
    requires |delimiter| == 1 && Quote !in field
    ensures Recoverable(field, delimiter)
  {
    if !NeedsEnclosure(field, delimiter, Quote) {
      assert delimiter == [delimiter[0]];
      forall i | 0 <= i < |field|
        ensures field[i] != delimiter[0]
      {
        assert field[i..i + 1] == [field[i]];
        assert !OccursAt(field, delimiter, i);
      }
    }
  }

  /** With a one-character delimiter, every non-empty quote-free row survives the round trip. */
  lemma SingleCharacterRoundTrip(row: Row, delimiter: String)
    requires |delimiter| == 1 && Quote !in delimiter && row != []
    requires forall k :: 0 <= k < |row| ==> Quote !in row[k]
    ensures NextRow([EncodedRow(row, delimiter, Quote)], 0, delimiter) == Parsed(row, 1)
  {
    forall k | 0 <= k < |row|
      ensures Recoverable(row[k], delimiter)
    {
      SingleCharacterRecoverable(row[k], delimiter);
    }
    ParseEncodedRow(row, delimiter, []);
    assert [EncodedRow(row, delimiter, Quote)] + [] == [EncodedRow(row, delimiter, Quote)];
  }

  /**
   A doubled quote does not come back: `a"b` is encoded as `"a""b"`, and the
   parser reads every quote as a toggle, so the field comes back as `ab`.
   */
  lemma QuoteIsLost(field: String, line: String, delimiter: String)
    requires field == "a\"b" && delimiter == ","
    requires line == "\"a\"\"b\""
    ensures EncodedRow([field], delimiter, Quote) == line
    ensures NextRow([line], 0, delimiter) == Parsed(["ab"], 1)
  {
    EncodeQuotedField(field, line, delimiter);
    ParseQuotedLine(line, delimiter);
  }

  lemma EncodeQuotedField(field: String, line: String, delimiter: String)
    requires field == "a\"b" && delimiter == ","
    requires line == "\"a\"\"b\""
    ensures EncodedRow([field], delimiter, Quote) == line
  {
    assert EncodedRow([field], delimiter, Quote) == EncodedField(field, delimiter, Quote);
    EscapedSingleQuote(field, Quote, 1);
    assert field[..1] == "a" && field[2..] == "b";
    assert NeedsEnclosure(field, delimiter, Quote) by {
      assert field[1] == Quote;
    }
  }

  lemma ParseQuotedLine(line: String, delimiter: String)
    requires delimiter == ","
    requires line == "\"a\"\"b\""
    ensures NextRow([line], 0, delimiter) == Parsed(["ab"], 1)
  {
    var s0 := Scan([], true, 0, []);
    var s1 := Scan("a", true, 0, []);
    var s2 := Scan("a", false, 0, []);
    var s3 := Scan("a", true, 0, []);
    var s4 := Scan("ab", true, 0, []);
    var s5 := Scan("ab", false, 0, []);
    assert line == [Quote] + (['a'] + ([Quote] + ([Quote] + (['b'] + ([Quote] + [])))));
    ScanLineCons(Start, Quote, ['a'] + ([Quote] + ([Quote] + (['b'] + ([Quote] + [])))), delimiter);
    ScanLineCons(s0, 'a', [Quote] + ([Quote] + (['b'] + ([Quote] + []))), delimiter);
    ScanLineCons(s1, Quote, [Quote] + (['b'] + ([Quote] + [])), delimiter);
    ScanLineCons(s2, Quote, ['b'] + ([Quote] + []), delimiter);
    ScanLineCons(s3, 'b', [Quote] + [], delimiter);
    ScanLineCons(s4, Quote, [], delimiter);
    assert Step(Start, Quote, delimiter) == s0 && Step(s0, 'a', delimiter) == s1;
    assert Step(s1, Quote, delimiter) == s2 && Step(s2, Quote, delimiter) == s3;
    assert Step(s3, 'b', delimiter) == s4 && Step(s4, Quote, delimiter) == s5;
    assert ScanLine(s5, [], delimiter) == s5;
  }

  /**
   An unenclosed field holding the delimiter's characters scattered does not
   come back: with `<|>`, `<x|y>` needs no enclosure, yet the parser
   completes the delimiter across `x` and `y` and splits the field.
   */
  lemma ScatteredFieldSplits(line: String, delimiter: String)
    requires delimiter == "<|>" && line == "<x|y><|>z"
    ensures !NeedsEnclosure("<x|y>", delimiter, Quote)
    ensures EncodedRow(["<x|y>", "z"], delimiter, Quote) == line
    ensures NextRow([line], 0, delimiter) == Parsed(["<x", "", "z"], 1)
  {
    EncodeScatteredRow(line, delimiter);
    ParseScatteredLine(line, delimiter);
  }

  lemma EncodeScatteredRow(line: String, delimiter: String)
    requires delimiter == "<|>" && line == "<x|y><|>z"
    ensures !NeedsEnclosure("<x|y>", delimiter, Quote)
    ensures EncodedRow(["<x|y>", "z"], delimiter, Quote) == line
  {
    var field := "<x|y>";
    assert !NeedsEnclosure(field, delimiter, Quote) by {
      forall i: nat
        ensures !OccursAt(field, delimiter, i)
      {
        if i == 0 {
          assert field[i..i + 3][1] == 'x';
        } else if i == 1 {
          assert field[i..i + 3][0] == 'x';
        } else if i == 2 {
          assert field[i..i + 3][0] == '|';
        }
      }
      assert !HasAnyOf(field, EnclosePattern(Quote));
    }
    EncodedFieldPlain(field, delimiter, Quote);
    EncodedFieldPlain("z", delimiter, Quote);
    assert EncodedRow(["<x|y>", "z"], delimiter, Quote) == line by {
      var row := ["<x|y>", "z"];
      assert row[..1] == ["<x|y>"];
      assert EncodedRow(row, delimiter, Quote) == EncodedRow(["<x|y>"], delimiter, Quote) + delimiter + EncodedField("z", delimiter, Quote);
    }
  }

  /** The empty row encodes to the empty line, which parses to a row of one empty field. */
  lemma EmptyRowComesBackAsOneField(delimiter: String)
    ensures EncodedRow([], delimiter, Quote) == []
    ensures NextRow([EncodedRow([], delimiter, Quote)], 0, delimiter) == Parsed([[]], 1)
  {
    var lines: seq<String> := [[]];
    assert ScanLine(Start, lines[0], delimiter) == Start;
    assert Start.row + [Start.buffer] == [[]];
  }

  lemma ParseScatteredLine(line: String, delimiter: String)
    requires delimiter == "<|>" && line == "<x|y><|>z"
    ensures NextRow([line], 0, delimiter) == Parsed(["<x", "", "z"], 1)
  {
    var s5 := Scan([], false, 0, ["<x"]);
    var s8 := Scan([], false, 0, ["<x", ""]);
    var d := delimiter;
    assert line == [d[0]] + (['x'] + ([d[1]] + (['y'] + ([d[2]] + (d + "z")))));
    ScatteredFieldChars('x', 'y', d + "z", d);
    assert [d[0], 'x'] == "<x";
    ScanLineAppend(s5, d, "z", d);
    DelimiterEndsField(s5, d);
    PlainTextIsContent(s8, "z", d);
    assert ScanLine(Start, line, d) == Scan("z", false, 0, ["<x", ""]);
  }

  /** The field `<x|y>` alone already completes the delimiter `<|>` and pushes `<x`. */
  lemma ScanScatteredField(field: String, delimiter: String)
    requires field == "<x|y>" && delimiter == "<|>"
    ensures ScanLine(Start, field, delimiter) == Scan([], false, 0, ["<x"])
  {
    var d := delimiter;
    assert field == [d[0]] + (['x'] + ([d[1]] + (['y'] + ([d[2]] + []))));
    ScatteredFieldChars('x', 'y', [], d);
    assert [d[0], 'x'] == "<x";
  }

  /**
   For any three-character delimiter: a field that starts with the first
   delimiter character and holds the other two, each after one mismatching
   character, completes the delimiter inside the field and pushes its first
   two characters.
   */
  lemma ScatteredFieldChars(x: char, y: char, rest: String, d: String)
    requires |d| == 3 && Quote !in d
    requires x != Quote && x != d[1] && y != Quote && y != d[2]
    ensures ScanLine(Start, [d[0]] + ([x] + ([d[1]] + ([y] + ([d[2]] + rest)))), d) ==
      ScanLine(Scan([], false, 0, [[d[0], x]]), rest, d)
  {
    var s3 := Scan([d[0], x, d[1]], false, 2, []);
    ScatteredFieldHead(x, [y] + ([d[2]] + rest), d);
    ScatteredFieldTail(s3, y, rest, d);
  }

  /** The first delimiter character, a mismatch and the second delimiter character. */
  lemma ScatteredFieldHead(x: char, rest: String, d: String)
    requires |d| == 3 && Quote !in d
    requires x != Quote && x != d[1]
    ensures ScanLine(Start, [d[0]] + ([x] + ([d[1]] + rest)), d) ==
      ScanLine(Scan([d[0], x, d[1]], false, 2, []), rest, d)
  {
    var s1 := Scan([d[0]], false, 1, []);
    var s2 := Scan([d[0], x], false, 1, []);
    var s3 := Scan([d[0], x, d[1]], false, 2, []);
    assert Start.buffer + [d[0]] == s1.buffer;
    MatchAdvances(Start, d[0], [x] + ([d[1]] + rest), d, s1);
    assert s1.buffer + [x] == s2.buffer;
    MismatchIsStored(s1, x, [d[1]] + rest, d, s2);
    assert s2.buffer + [d[1]] == s3.buffer;
    MatchAdvances(s2, d[1], rest, d, s3);
  }

  /** A mismatch and the third delimiter character, which completes the match. */
  lemma ScatteredFieldTail(s3: Scan, y: char, rest: String, d: String)
    requires |d| == 3 && Quote !in d && |s3.buffer| == 3
    requires s3 == Scan([d[0], s3.buffer[1], d[1]], false, 2, [])
    requires y != Quote && y != d[2]
    ensures ScanLine(s3, [y] + ([d[2]] + rest), d) ==
      ScanLine(Scan([], false, 0, [[d[0], s3.buffer[1]]]), rest, d)
  {
    var s4 := Scan(s3.buffer + [y], false, 2, []);
    var s5 := Scan([], false, 0, [[d[0], s3.buffer[1]]]);
    MismatchIsStored(s3, y, [d[2]] + rest, d, s4);
    assert (s4.buffer + [d[2]])[..|s4.buffer| + 1 - |d|] == [d[0], s3.buffer[1]];
    MatchCompletes(s4, d[2], rest, d, s5);
  }
}

=== FILE: table.dfy ===
/**
 Model of the tabular container (csv_data.hpp): a map from column names to
 column indexes and the rows of values, with column extraction and
 iterators that point into the rows.

 `operator[]` on the column map inserts an unknown name with index 0, so
 every lookup by name may grow the map; the rows are never touched by a
 lookup. A row iterator is a position in `values`; a column iterator is a
 row iterator plus a column index, and a write through it changes one cell.
 */
module Table {
  import opened Text

  type Row = seq<String>

  /** Every row has a cell at `index`. */
  predicate Rectangular(values: seq<Row>, index: nat)
  {
    forall k :: 0 <= k < |values| ==> index < |values[k]|
  }

  /** `column_index[name]`: the index stored for `name`, or 0 for a name not yet present. */
  function IndexOf(columns: map<String, nat>, name: String): nat
  {
    if name in columns then columns[name] else 0
  }

  /** The column map after `column_index[name]`: the name is present, everything else unchanged. */
  function Inserted(columns: map<String, nat>, name: String): (r: map<String, nat>)
    ensures r.Keys == columns.Keys + {name}
    ensures forall k :: k in columns ==> r[k] == columns[k]
    ensures r[name] == IndexOf(columns, name)
  {
    if name in columns then columns else columns[name := 0]
  }

  /** The cells at `index` of every row, in row order. */
  function Column(values: seq<Row>, index: nat): (r: Row)
    requires Rectangular(values, index)
    ensures |r| == |values|
    ensures forall k :: 0 <= k < |r| ==> r[k] == values[k][index]
    decreases |values|
  {
    if values == [] then []
    else Column(values[..|values| - 1], index) + [values[|values| - 1][index]]
  }

  /**
   Writing one cell changes the column that holds it in that one row and
   leaves every other column as it was.
   */
  lemma ColumnAfterWrite(values: seq<Row>, row: nat, column: nat, value: String, index: nat)
    requires row < |values| && column < |values[row]| && Rectangular(values, index)
    ensures var written := values[row := values[row][column := value]];
            Rectangular(written, index) &&
            Column(written, index) ==
              (if column == index then Column(values, index)[row := value] else Column(values, index))
  {
    var written := values[row := values[row][column := value]];
    assert Rectangular(written, index);
    if column == index {
      assert Column(written, index) == Column(values, index)[row := value];
    } else {
      assert Column(written, index) == Column(values, index);
    }
  }

  /** `CSVData`: the column map and the rows. */
  class CsvData {
    var columnIndex: map<String, nat>
    var values: seq<Row>

    /** Stores both arguments as they are. */
    constructor (columnIndex: map<String, nat>, values: seq<Row>)
      ensures this.columnIndex == columnIndex && this.values == values
    {
      this.columnIndex := columnIndex;
      this.values := values;
    }

    /**
     `column_values`: a fresh sequence holding a copy of the named column's
     cell from every row. The lookup may insert the name.
     */
    method ColumnValues(name: String) returns (output: Row)
      requires Rectangular(values, IndexOf(columnIndex, name))
      modifies this`columnIndex
      ensures columnIndex == Inserted(old(columnIndex), name)
      ensures |output| == |values|
      ensures forall k :: 0 <= k < |values| ==> output[k] == values[k][IndexOf(old(columnIndex), name)]
      ensures output == Column(values, IndexOf(old(columnIndex), name))
    {
      output := [];
      var index := IndexOf(columnIndex, name);
      columnIndex := Inserted(columnIndex, name);
      var k := 0;
      while k < |values|
        invariant 0 <= k <= |values|
        invariant output == Column(values[..k], index)
      {
        assert values[..k + 1][..k] == values[..k];
        output := output + [values[k][index]];
        k := k + 1;
      }
      assert values[..k] == values;
    }

    /** `begin_col_iter`: a column iterator on the first row. */
    method BeginColIter(name: String) returns (it: ColumnIterator)
      modifies this`columnIndex
      ensures columnIndex == Inserted(old(columnIndex), name)
      ensures fresh(it) && fresh(it.base) && it.base.data == this
      ensures it.base.row == 0 && it.column == IndexOf(old(columnIndex), name)
    {
      var index := IndexOf(columnIndex, name);
      columnIndex := Inserted(columnIndex, name);
      it := new ColumnIterator(this, 0, index);
    }

    /** `end_col_iter`: a column iterator one past the last row. */
    method EndColIter(name: String) returns (it: ColumnIterator)
      modifies this`columnIndex
      ensures columnIndex == Inserted(old(columnIndex), name)
      ensures fresh(it) && fresh(it.base) && it.base.data == this
      ensures it.base.row == |values| && it.column == IndexOf(old(columnIndex), name)
    {
      var index := IndexOf(columnIndex, name);
      columnIndex := Inserted(columnIndex, name);
      it := new ColumnIterator(this, |values|, index);
    }
  }

  /** `BaseIterator`: a position in the rows of one table. */
  class RowIterator {
    const data: CsvData
    var row: nat

    constructor (data: CsvData, row: nat)
      ensures this.data == data && this.row == row
    {
      this.data := data;
      this.row := row;
    }

    /** `*it`: the row at the position. */
    method Get() returns (r: Row)
      requires row < |data.values|
      ensures r == data.values[row]
    {
      r := data.values[row];
    }

    /** Assignment through `*it`: replaces the row at the position, and only it. */
    method Set(value: Row)
      requires row < |data.values|
      modifies data`values
      ensures data.values == old(data.values)[row := value]
    {
      data.values := data.values[row := value];
    }

    /** Prefix `++`: the next row. */
    method Increment()
      requires row < |data.values|
      modifies this`row
      ensures row == old(row) + 1
    {
      row := row + 1;
    }

    /** Postfix `++`: advances and then returns this same iterator, not a copy of its prior state. */
    method PostIncrement() returns (r: RowIterator)
      requires row < |data.values|
      modifies this`row
      ensures r == this && row == old(row) + 1
    {
      Increment();
      r := this;
    }

    /** `==`: same position. */
    method Equals(other: RowIterator) returns (b: bool)
      requires other.data == data
      ensures b <==> row == other.row
    {
      b := row == other.row;
    }

    /** `!=`: different positions. */
    method NotEquals(other: RowIterator) returns (b: bool)
      requires other.data == data
      ensures b <==> row != other.row
    {
      b := row != other.row;
    }
  }

  /**
   `ColumnIterator`: a row iterator (the base part it inherits) and a column
   index. Only dereference is its own; moving and comparing are the base's.
   */
  class ColumnIterator {
    const base: RowIterator
    const column: nat

    constructor (data: CsvData, row: nat, column: nat)
      ensures fresh(base) && base.data == data && base.row == row && this.column == column
    {
      base := new RowIterator(data, row);
      this.column := column;
    }

    /** The cell the iterator designates exists. */
    predicate OnCell()
      reads this, base, base.data
    {
      base.row < |base.data.values| && column < |base.data.values[base.row]|
    }

    /** `*it`: the cell of this column in the current row. */
    method Get() returns (r: String)
      requires OnCell()
      ensures r == base.data.values[base.row][column]
    {
      r := base.data.values[base.row][column];
    }

    /** Assignment through `*it`: changes that one cell and nothing else. */
    method Set(value: String)
      requires OnCell()
      modifies base.data`values
      ensures |base.data.values| == |old(base.data.values)|
      ensures base.data.values[base.row] == old(base.data.values)[base.row][column := value]
      ensures forall k :: 0 <= k < |base.data.values| && k != base.row ==>
                base.data.values[k] == old(base.data.values)[k]
    {
      var r := base.data.values[base.row];
      base.Set(r[column := value]);
    }

    /** Prefix `++`, inherited: the next row, same column. */
    method Increment()
      requires base.row < |base.data.values|
      modifies base`row
      ensures base.row == old(base.row) + 1
    {
      base.Increment();
    }

    /** Postfix `++`, inherited: advances and returns the base part of this iterator. */
    method PostIncrement() returns (r: RowIterator)
      requires base.row < |base.data.values|
      modifies base`row
      ensures r == base && base.row == old(base.row) + 1
    {
      r := base.PostIncrement();
    }

    /** `==`, inherited: compares the row positions; the columns are not compared. */
    method Equals(other: ColumnIterator) returns (b: bool)
      requires other.base.data == base.data
      ensures b <==> base.row == other.base.row
    {
      b := base.Equals(other.base);
    }

    /** `!=`, inherited: the row positions differ. */
    method NotEquals(other: ColumnIterator) returns (b: bool)
      requires other.base.data == base.data
      ensures b <==> base.row != other.base.row
    {
      b := base.NotEquals(other.base);
    }
  }
}

=== FILE: table_tests.dfy ===
/**
 The source's container tests: construction keeps its arguments, and a
 column taken with `ColumnValues` is a copy that a later write to the rows
 does not change.
 */
module TableTests {
  import opened Text
  import opened Table

  /** `test_of_init`: the stored map and rows are the given ones. */
  method TestInit() returns (cell: String, index: nat)
    ensures cell == "text" && index == 0
  {
    var data := new CsvData(map["message" := 0], [["text"]]);
    cell := data.values[0][0];
    index := data.columnIndex["message"];
  }

  /**
   `test_of_column_values`: the column `thing` is taken, then the first
   row's cell in that column is overwritten. The copy keeps the old value,
   so it is `text2, text4` and not the `new text, text4` the test compares
   it with.
   */
  method TestColumnValues() returns (out: Row, firstRow: Row)
    ensures out == ["text2", "text4"] && out != ["new text", "text4"]
    ensures firstRow == ["text1", "new text"]
  {
    var data := new CsvData(map["message" := 0, "thing" := 1], [["text1", "text2"], ["text3", "text4"]]);
    out := data.ColumnValues("thing");
    data.values := data.values[0 := data.values[0][1 := "new text"]];
    firstRow := data.values[0];
  }

  /**
   Writing through a column iterator at the first row changes that row's
   cell in the rows, while a column copied before keeps the old value.
   Iterators compare by row position only: two at different rows differ,
   and two on different columns at the same row are equal.
   */
  method TestColumnIterator() returns (copied: Row, live: Row, same: bool, sameRow: bool)
    ensures copied == ["text2", "text4"] && live == ["new text", "text4"]
    ensures !same && sameRow
  {
    var data := new CsvData(map["message" := 0, "thing" := 1], [["text1", "text2"], ["text3", "text4"]]);
    copied := data.ColumnValues("thing");
    var it := data.BeginColIter("thing");
    var stop := data.EndColIter("message");
    it.Set("new text");
    live := data.ColumnValues("thing");
    same := it.Equals(stop);
    var other := data.BeginColIter("message");
    sameRow := it.Equals(other);
  }
}

=== FILE: text.dfy ===
/**
 Character-sequence helpers shared by the encoder, the parser and the table:
 the few `std::string` searches the source relies on, stated over `seq<char>`,
 and counting/deleting/joining used to state properties.
 */
module Text {

  type String = seq<char>

  datatype Option<+T> = None | Some(value: T)

  /** Number of occurrences of `c` in `s`. */
  function Count(s: String, c: char): (n: nat)
    ensures n <= |s|
    ensures n == 0 <==> c !in s
  {
    if s == [] then 0 else (if s[0] == c then 1 else 0) + Count(s[1..], c)
  }

  lemma {:induction false} CountAppend(a: String, b: String, c: char)
    ensures Count(a + b, c) == Count(a, c) + Count(b, c)
  {
    if a == [] {
      assert a + b == b;
    } else {
      assert (a + b)[1..] == a[1..] + b;
      CountAppend(a[1..], b, c);
    }
  }

  /** `s` with every occurrence of `c` deleted. */
  function Without(s: String, c: char): (r: String)
    ensures c !in r
    ensures |r| == |s| - Count(s, c)
    ensures forall x :: x in r ==> x in s
  {
    if s == [] then [] else (if s[0] == c then [] else [s[0]]) + Without(s[1..], c)
  }

  lemma {:induction false} WithoutAppend(a: String, b: String, c: char)
    ensures Without(a + b, c) == Without(a, c) + Without(b, c)
  {
    if a == [] {
      assert a + b == b;
    } else {
      assert (a + b)[1..] == a[1..] + b;
      WithoutAppend(a[1..], b, c);
    }
  }

  /**
   `std::string::find(c, from)`: the first index at or after `from` that holds
   `c`, or `None` for `npos`.
   */
  function FindChar(s: String, c: char, from: nat): (r: Option<nat>)
    ensures r.Some? ==> from <= r.value < |s| && s[r.value] == c
    ensures r.Some? ==> forall k :: from <= k < r.value ==> s[k] != c
    ensures r.None? ==> forall k :: from <= k < |s| ==> s[k] != c
    decreases |s| - from
  {
    if from >= |s| then None
    else if s[from] == c then Some(from)
    else FindChar(s, c, from + 1)
  }

  /** `pattern` occurs in `s` starting at index `i`. */
  predicate OccursAt(s: String, pattern: String, i: nat)
  {
    i + |pattern| <= |s| && s[i..i + |pattern|] == pattern
  }

  /** `s.find(pattern, from) != npos`: some occurrence starts at or after `from`. */
  function ContainsFrom(s: String, pattern: String, from: nat): (b: bool)
    ensures b <==> exists i :: from <= i && OccursAt(s, pattern, i)
    decreases |s| - from
  {
    if from + |pattern| > |s| then false
    else OccursAt(s, pattern, from) || ContainsFrom(s, pattern, from + 1)
  }

  /** `s.find(pattern) != npos`. The empty pattern occurs in every string. */
  function Contains(s: String, pattern: String): (b: bool)
    ensures b <==> exists i :: OccursAt(s, pattern, i)
    ensures pattern == [] ==> b
  {
    assert pattern == [] ==> OccursAt(s, pattern, 0);
    ContainsFrom(s, pattern, 0)
  }

  /** `s.find_first_of(chars) != npos`: some character of `s` is one of `chars`. */
  function HasAnyOf(s: String, chars: String): (b: bool)
    ensures b <==> exists i :: 0 <= i < |s| && s[i] in chars
  {
    if s == [] then false
    else if s[0] in chars then true
    else
      var rest := HasAnyOf(s[1..], chars);
      assert forall i :: 1 <= i < |s| ==> s[i] == s[1..][i - 1];
      rest
  }

  /** `parts` joined with `separator` between neighbours, none before or after. */
  function Join(parts: seq<String>, separator: String): (r: String)
    decreases |parts|
  {
    if parts == [] then []
    else if |parts| == 1 then parts[0]
    else parts[0] + separator + Join(parts[1..], separator)
  }

  /** Appending one more part at the end of a join adds one separator before it. */
  lemma {:induction false} JoinSnoc(parts: seq<String>, last: String, separator: String)
    requires parts != []
    ensures Join(parts + [last], separator) == Join(parts, separator) + separator + last
    decreases |parts|
  {
    if |parts| == 1 {
      assert (parts + [last])[1..] == [last];
    } else {
      assert (parts + [last])[1..] == parts[1..] + [last];
      JoinSnoc(parts[1..], last, separator);
    }
  }

  /** An empty first part contributes only its separator. */
  lemma JoinEmptyFirst(parts: seq<String>, separator: String)
    requires parts != []
    ensures Join([[]] + parts, separator) == separator + Join(parts, separator)
  {
    assert ([[]] + parts)[1..] == parts;
  }

  /** Putting a prefix on the first part puts it on the join. */
  lemma JoinPrefixFirst(prefix: String, parts: seq<String>, separator: String)
    requires parts != []
    ensures Join([prefix + parts[0]] + parts[1..], separator) == prefix + Join(parts, separator)
  {
    var r := [prefix + parts[0]] + parts[1..];
    if |parts| > 1 {
      assert r[1..] == parts[1..];
    }
  }
}
